=== FILE: README.md ===
# QC checklist dashboard: rule and thread logic in Dafny

This project models the logic layer of the QC checklist dashboard, a React app. QC inspectors and site managers (SM) use it to discuss business rules in threads. The model covers:

- which rules the table lists under the filter bar;
- which threads a rule's expanded row, the chat panel and the spreadsheet export show, and in what order (Open before Closed, otherwise input order);
- the reducer-style commands that add threads and comments, close threads, and change action status, priority and row/thread expansion;
- the urgency and SLA summaries;
- the latest QC/SM comment of a thread;
- grouping rules by module;
- the expand/collapse-all button;
- the close-thread dialog in its table and chat-panel variants;
- the chat panel's input guards;
- the pixel arithmetic that sizes and places the chat window.

Everything is a pure function or a small method over immutable datatypes. The clock (`now`) and generated ids are parameters. A thread's instants are integer milliseconds. A comment's timestamp stays a string, because the code compares it as one. Filter selections are lists of strings in which "All" means "no constraint".

Modules, one file each:

- `Wrappers`: `Option`.
- `Seqs`: filtering, subsequences, de-duplication.
- `Text`: JavaScript `trim`, `includes` on strings, and `<` on strings.
- `Model`: the records of `src/types/index.ts`.
- `Ordering`: the Open-first sort.
- `Filters`: rule and thread visibility.
- `Commands`: the App handlers.
- `Export`: the export row builder.
- `Sla`: urgency and due dates.
- `Table`: grouping, latest comments, expand/collapse-all.
- `Header`: the filter bar.
- `CloseDialog`: the close-thread dialog.
- `Panel`: chat-panel guards and geometry.
- `ScalarFilter`: the filter values as the code actually stores them (see Findings).

A few behaviours read from the code are modelled as written:

- The table's close dialog shows a closure-comment box, but its confirm handler ignores the text. Only the chat panel posts a "[Thread Closed] …" comment.
- In the chat panel, clicking the switch of a Closed thread calls `onToggleThread`. The app wires that to the toggle of its own `expandedThreads` set, which the table's rows read, so the click flips that set and does not touch the thread's status. The panel's rule view reads a set of its own (src/components/ChatPanel.tsx:44), so inside the panel the click has no visible effect.
- Changing the module filter does not reset the business-rule filter (src/components/Header.tsx:32-46); the model follows the code.

## Model

| member | source | states |
|---|---|---|
| Model.LabelsInjective | src/types/index.ts:29-36 | the stored status, action-status and priority texts identify their values, and no rule or thread status is spelled "All" |
| Filters.FilteredRules | src/App.tsx:37-52 | a rule is listed iff it is an input rule whose module matches (or the module filter is "All"), whose status and description are admitted, and which has a thread with an admitted title unless the title filter holds "All"; the result is an order-preserving subsequence of the rules, and a listed rule appears as many times as in the input |
| Filters.ThreadFilterChain | src/App.tsx:58-67 | the two conditional `filter` steps keep exactly the threads passing both the thread-status and the thread-title selection |
| Filters.CurrentRuleThreads | src/App.tsx:55-84 | empty without a selected rule; in thread context exactly the passing threads with the selected id; otherwise exactly the passing threads of the selected rule; always Open before Closed |
| Filters.RuleThreads | src/components/DataTable.tsx:312-329 | a rule's expanded row lists exactly the rule's threads passing both thread filters, as the stable Open-first sort of them |
| Filters.PanelAgreesWithTable | src/App.tsx:55-84 | in rule context the chat panel shows the same list, in the same order, as the rule's expanded table row |
| Filters.PanelShowsSelectedThread | src/App.tsx:55-84 | in thread context the chat panel lists the passing threads with the selected id, each as often as it occurs in the thread list, Open before Closed and otherwise in list order |
| Filters.KeepSortedSorted | src/App.tsx:71-83 | filtering the sorted list (as the context filter does after the sort) keeps it Open-first |
| Ordering.OpenFirst | src/App.tsx:71-75 | the sort result is a permutation of its input with every Open thread before every Closed one, and Open threads, like Closed ones, keep their input order |
| Ordering.SortedIsPartition | src/App.tsx:71-75 | any list the comparator accepts is its Open threads followed by its Closed threads |
| Ordering.StableSortIsOpenFirst | src/App.tsx:71-75 | any stable sort with this comparator gives exactly `OpenFirst`: the result of the sort is unique |
| Ordering.KeepOpenFirst | src/App.tsx:71-83 | filtering before or after the sort gives the same list |
| Ordering.OpenFirstExample | src/App.tsx:71-75 | Closed, Open, Open, Closed sorts to the two Open threads and then the two Closed ones, each pair in input order |
| Commands.AddThread | src/App.tsx:141-159 | appends exactly one thread and keeps the existing ones; the new thread is Open, "Action Required", P2, has no comments, was created and updated now and is due 259200000 ms later |
| Commands.AddThreadKeepsInvariants | src/App.tsx:141-159 | under a fresh id, thread ids stay unique and every comment stays in the thread it names |
| Commands.AddComment | src/App.tsx:161-180 | the matching thread gains one unread comment at the end, with the given text, author and thread id, and is updated now; every other thread and every other field is untouched; an unknown id changes nothing |
| Commands.AddCommentKeepsInvariants | src/App.tsx:161-180 | adding a comment keeps every comment in its own thread and keeps the thread ids |
| Commands.CloseThread | src/App.tsx:194-204 | only the matching thread's status changes, to the other status, together with its update time |
| Commands.CloseTwiceRestores | src/App.tsx:194-204 | closing twice restores every thread except for its update time |
| Commands.SetActionStatus | src/App.tsx:206-216 | only the action status and the update time of the matching thread change |
| Commands.SetPriority | src/App.tsx:218-228 | only the priority and the update time of the matching thread change |
| Commands.Toggle | src/App.tsx:238-248 | the given id's membership flips and no other id's membership changes |
| Commands.ToggleInvolution | src/App.tsx:182-192 | toggling the same id twice restores the set (the panel's own `toggleThreadExpansion`, src/components/ChatPanel.tsx:61-69, is the same toggle) |
| Export.RowsFor | src/App.tsx:288-317 | a rule with no shown thread gets one row with "N/A" in the last five columns; otherwise one row per shown thread, in order; every row is ten wide and starts with the rule's five columns |
| Export.ExportRows | src/App.tsx:250-319 | the header row comes first, followed by exactly the rules' rows in the order the table lists the rules; every row is ten wide, and there are `1 + Σ max(1, n_r)` rows over the listed rules |
| Export.BodySplit | src/App.tsx:269-318 | the rows of the `k`-th rule sit between the rows of the rules before it and the rows of the rules after it |
| Export.BodyBlock | src/App.tsx:269-318 | the `k`-th rule's rows are the contiguous block that starts after the `Σ max(1, n_r)` rows of the rules before it |
| Export.ExportBlock | src/App.tsx:269-318 | the export is the header, the rows of the rules listed before the `k`-th (`Σ max(1, n_r)` of them), that rule's own rows, then the rows of the rules after it; a listed rule showing no thread contributes exactly its one placeholder row |
| Export.BodyAppend | src/App.tsx:269-318 | the rows of two consecutive runs of rules are the rows of the first run followed by those of the second |
| Export.BodyLength | src/App.tsx:269-318 | the rules' rows number `Σ max(1, n_r)` |
| Export.ExportMatchesTable | src/App.tsx:269-318 | every thread shown under a listed rule has its row in the export |
| Export.BodyRowsSound | src/App.tsx:269-318 | every exported row after the header describes a listed rule and one of its shown threads, or the placeholder when it shows none |
| Sla.FloorDiv | src/components/DataTable.tsx:170 | floor division of milliseconds by a day, for negative differences too |
| Sla.CeilDiv | src/components/DataTable.tsx:221 | ceiling division of milliseconds by a day, for negative differences too |
| Sla.UrgencyOf | src/components/DataTable.tsx:167-198 | overdue days are `max(0, d − T)` with `T` 1, 3 or 7 for P1, P2 or P3; overdue iff `d > T`; the level is critical/high/medium when overdue and high/medium/low otherwise, escalated to critical for an overdue "Action Required" thread |
| Sla.UrgencyMonotoneInDays | src/components/DataTable.tsx:176-190 | urgency level and overdue days never drop as days since the update grow |
| Sla.UrgencyMonotoneInPriority | src/components/DataTable.tsx:176-190 | at the same age, P1 is at least as urgent as P2 and P2 at least as urgent as P3 |
| Sla.SlaOf | src/components/DataTable.tsx:216-234 | overdue iff now is past the due instant; overdue days are 0 when not overdue, otherwise the day-ceiling of the lateness (at least 1); days until due and since creation are the ceiling and floor of the differences in days |
| Sla.OverdueMirrorsDaysUntilDue | src/components/DataTable.tsx:221-224 | once overdue, overdue days plus days until due is 0 or 1 |
| Sla.NewThreadDeadline | src/App.tsx:141-159 | a new thread is overdue exactly once more than three days have passed, and is of medium urgency until then; this holds for any clock reading, including one taken before creation |
| Table.GroupRules | src/components/DataTable.tsx:53-63 | the group keys are the distinct module names in first-occurrence order, and each key's group holds that module's rules in input order |
| Table.OfModuleMembership | src/components/DataTable.tsx:53-63 | each rule is in the group of its own module and in no other |
| Table.FindThread | src/components/DataTable.tsx:84 | nothing iff no thread has the id, otherwise the first thread that has it |
| Table.LatestBy | src/components/DataTable.tsx:87-95 | nothing iff the author has no comment with a non-empty timestamp; otherwise a comment by the author whose timestamp no other comment of theirs exceeds, the first such on ties |
| Table.LatestCommentForThread | src/components/DataTable.tsx:83-98 | nothing for an unknown thread; otherwise the latest comment by the author in the first thread with the id (QC here, SM in the twin at lines 100-115) |
| Table.AddedCommentBecomesLatest | src/components/DataTable.tsx:83-98 | a comment stamped later than every earlier comment of its author becomes that author's latest |
| Table.ExpandCollapseAllEffect | src/components/DataTable.tsx:397-415 | after the button, the listed threads are all collapsed if all were expanded before, and all expanded otherwise; other threads keep their state |
| Header.HandleFilterChange | src/components/Header.tsx:32-46 | the chosen key takes the chosen value; choosing a business rule also resets the thread title to "All"; every other key keeps its selection |
| Header.FilterChangeIdempotent | src/components/Header.tsx:32-46 | choosing the same value twice is choosing it once, and choosing a business rule forgets any earlier thread-title choice |
| Header.FindRule | src/components/Header.tsx:55 | nothing iff no rule's description is selected, otherwise the first rule whose description is |
| Header.RuleTitles | src/components/Header.tsx:61-64 | the titles are duplicate-free, and a title is listed iff some thread of the rule has it |
| Header.CascadingTitleOptions | src/components/Header.tsx:49-67 | the given options when "All" is selected or no rule matches; otherwise "All" followed by the distinct titles of exactly the first matching rule's threads |
| Header.CascadeFirstOccurrence | src/components/Header.tsx:64 | titles keep first-occurrence order: the titles met in the first k threads come first, in the same order |
| Seqs.DedupPrefix | src/components/Header.tsx:64 | `Array.from(new Set(…))` keeps first-occurrence order |
| Header.ChoosingRuleCascades | src/components/Header.tsx:32-67 | choosing a rule's description in the bar makes the options "All" plus that rule's titles |
| ScalarFilter.HandleFilterChangeAsWritten | src/components/Header.tsx:32-46 | the handler as written stores strings, and read as lists they are what `Header.HandleFilterChange` stores |
| ScalarFilter.FilteredRulesAsWritten | src/App.tsx:37-52 | the rules whose filter conditions hold with `.includes` applied to what the slots really hold, as a subsequence of the input |
| ScalarFilter.AsWrittenShowsAtLeastCorrected | src/App.tsx:37-52 | the code as written never hides a rule the corrected filter lists |
| ScalarFilter.HelmetSelectionAdmitsEveryRule | src/App.tsx:41 | choosing rule 1's description lists rule 2 too as written, and only rule 1 when corrected |
| ScalarFilter.ChosenDescriptionNarrows | src/App.tsx:41 | corrected: with one description chosen, every listed rule carries it |
| ScalarFilter.CascadeAsWritten | src/components/Header.tsx:49-67 | the initial list is never `=== 'All'` and never equals a description, so it yields the given options; a stored string behaves as the corrected cascade |
| ScalarFilter.CascadeAgrees | src/components/Header.tsx:49-58 | in every state the app reaches, the strict comparisons give the same options as the corrected cascade |
| CloseDialog.Buttons | src/components/ChatPanel.tsx:979-1012 | the footer: "Close Thread" is offered iff the dialog shows an Open thread marked "No Error" or "Error"; it comes with Cancel; otherwise there is exactly one, cancelling, button; the table's footer (src/components/DataTable.tsx:792-825) is the same |
| CloseDialog.Step | src/components/ChatPanel.tsx:71-107 | a cancelling button resets the dialog; the panel's switch on a Closed thread only toggles expansion, and on an Open one opens the dialog; confirming resets the dialog and calls close exactly once, last, preceded by a QC "[Thread Closed] " comment only when the trimmed closure text is non-empty. In the table (src/components/DataTable.tsx:256-287) the switch always opens the dialog, and confirming closes the thread once and posts no comment |
| CloseDialog.ApplyEffects | src/App.tsx:161-204 | running the emitted commands keeps the thread ids; only toggles touch the expanded set, and toggles alone leave the threads unchanged |
| CloseDialog.CloseOpenReopensNothing | src/App.tsx:194-204 | closing a thread known to be Open leaves every Closed thread Closed |
| CloseDialog.NoPathReopens | src/components/DataTable.tsx:256-287 | no footer button of either dialog, no press of the header's X, and no click on a switch reopens a thread, provided the dialog's copy of its thread is current |
| CloseDialog.StepKeepsCurrent | src/components/ChatPanel.tsx:71-107 | a handler run on a deliverable event leaves the dialog holding a current copy of its thread, or none |
| CloseDialog.RunReopensNothing | src/components/ChatPanel.tsx:71-107 | no sequence of deliverable events (shown footer buttons, the header's X while the dialog shows, switch clicks on current threads, typing), through either dialog, reopens a thread |
| CloseDialog.PanelClosedClickOnlyExpands | src/components/ChatPanel.tsx:71-77 | in the panel, the switch of a Closed thread changes no thread, flips only that thread's membership in the app's `expandedThreads` set (the one the table reads), and leaves the dialog closed or open as it was |
| CloseDialog.TableClosedClickOnlyWarns | src/components/DataTable.tsx:256-262 | in the table, the switch of a Closed thread only opens a dialog whose sole button cancels |
| CloseDialog.PanelConfirmEffects | src/components/ChatPanel.tsx:90-102 | confirming in the panel adds the closure comment only if its trimmed text is non-empty and then closes the thread once |
| Text.Trim | src/components/ChatPanel.tsx:110 | the trimmed text is a slice of the input that neither starts nor ends with whitespace |
| Text.TrimEmptyIffWhite | src/components/ChatPanel.tsx:119 | a draft trims to empty iff it is all whitespace |
| Panel.SubmitThread | src/components/ChatPanel.tsx:109-115 | a thread is added iff the trimmed title is non-empty and a rule is shown; it gets the trimmed title, and the form is cleared and hidden; otherwise nothing changes |
| Panel.SubmitComment | src/components/ChatPanel.tsx:117-123 | a comment is posted iff that thread has a draft that is not blank; it gets the trimmed draft and only that draft is cleared; otherwise nothing changes |
| Panel.PostedTextIsMeaningful | src/components/ChatPanel.tsx:117-123 | the comment the panel adds is trimmed and not blank, and other threads' drafts survive |
| Panel.InitialExpanded | src/components/ChatPanel.tsx:44-51 | the initializer of the panel's expanded set yields at most one id: the first shown thread in thread context, none otherwise |
| Panel.InitialExpandsSelectedThread | src/components/ChatPanel.tsx:44-51 | evaluated in thread context, the initializer expands nothing but the selected thread |
| Panel.FirstMountCollapsed | src/App.tsx:22-29 | at the panel's first mount, the only time the initializer runs, the app's state has no rule and rule context, so no thread starts expanded |
| Panel.OnContextChange | src/components/ChatPanel.tsx:370-375 | switching to rule context with threads collapses them all; otherwise the set is kept |
| Panel.MaxCommentLength | src/components/ChatPanel.tsx:282 | the result bounds every comment's length and is 0 or some comment's length |
| Panel.OptimalSize | src/components/ChatPanel.tsx:272-311 | thread context: width in [400, 600], exactly 400 when no comment exceeds 50 characters, and height in [400, 800] covering 90 px a comment up to the cap; rule context: width 450, height in [400, 700] covering 150 px a thread up to the cap; otherwise 400 × 300 |
| Panel.OptimalSizeMonotone | src/components/ChatPanel.tsx:298-302 | in rule context more threads never give a shorter window |
| Panel.BoundedSize | src/components/ChatPanel.tsx:328-337 | no dimension grows, each is at most the screen's less 40 px, a size that fits is kept, and one that does not becomes exactly the screen's less 40 px |
| Panel.ClampCoord | src/components/ChatPanel.tsx:315-325 | the coordinate is at least 20, at most screen − size − 20 when that is at least 20, unchanged when already in range, 20 when below 20 or when the window does not fit, and screen − size − 20 when beyond that bound |
| Panel.ClampIdempotent | src/components/ChatPanel.tsx:383-392 | clamping a clamped coordinate, as a drag stop does, changes nothing |
| Panel.ClampPos | src/components/ChatPanel.tsx:383-392 | after a drag stops, the window's top-left corner is at least 20 px from the screen's top and left edges, and its far edges are 20 px inside whenever the window fits |
| Panel.FittedWindowInside | src/components/ChatPanel.tsx:340-351 | after auto-sizing, the window keeps at least 20 px from every screen edge |

## Left out

- Rendering: JSX, styling and the badge/colour helpers. These are presentation only.
- Animation and windowing: framer-motion, the drag and resize mechanics of the window library, and the window-resize listener. These are library plumbing. The screen size is a parameter.
- Maximise to 80 % of the screen (src/components/ChatPanel.tsx:443-455), because it multiplies floating-point numbers.
- The spreadsheet library calls, column widths and the file write (src/App.tsx:322-347). Locale date formatting is left out too: a date cell keeps its instant.
- Clock reads and id generation. `now`, new ids and comment timestamps are parameters.
- Parsing of date strings. Rule, thread and due instants are integers.
- Opening and closing the chat panel (`handleOpenChat`, `handleCloseChat`, src/App.tsx:92-139) and the `currentRule` lookup. The panel's selection is an input to the model.
- The in-place mutation of the state array by `sort`. The sort is modelled as pure.
- The add-thread, add-rule and configure-status modals, and the seed data. Two seed rules are reused as a concrete case.
- Rule fields nothing here reads: QC/SM comments, severity, `isNA`, `naReason`, custom status values, `hasPassedNoComments`. No code derives a rule's status from its threads, so no roll-up is modelled.
- Panel.MaxCommentLength: the model counts characters. JavaScript counts UTF-16 code units, so a character outside the Basic Multilingual Plane counts twice in the code.
- Text.Less: the model compares characters. JavaScript compares UTF-16 code units, and the two orders differ on characters outside the Basic Multilingual Plane.
- Table.GroupRules: the keys are in first-insertion order. JavaScript enumerates integer-like object keys (a module named "2024") first, in numeric order. The groups live in a plain object, so a module named after an `Object.prototype` member ("constructor", "toString", "__proto__") finds an inherited value and `push` throws (src/components/DataTable.tsx:57-60). The model groups such a module like any other.
- Panel.SubmitComment: the drafts live in a plain object too, so a thread id naming an `Object.prototype` member would read an inherited function, and calling `trim` on it would throw (src/components/ChatPanel.tsx:118-119). Thread ids have the form "thread-…", so this cannot happen, and the model reads a missing key as no draft.
- Panel.InitialExpanded: the initializer runs only at the panel's first mount. The app renders one panel for its whole life, so later openings keep the set from before, adjusted only by the context-change effect (`OnContextChange`).
- Table.ExpandCollapseAllEffect: requires the listed thread ids to be distinct, which holds when thread ids are unique. With a repeated id the code toggles that id twice.
- Commands.AddThreadKeepsInvariants: requires a fresh id, because ids derived from the clock can collide.
- CloseDialog.NoPathReopens: assumes the dialog's copy of its thread is current. A copy taken before the thread changed elsewhere is not modelled.
- CloseDialog.RunReopensNothing: covers runs of dialog events only, with the clock readings fixed for the run. Status changes made elsewhere between events (the status menus, other commands) are not interleaved.
- Panel.OptimalSize: `Math.max(...list)` throws on very long comment lists; the model always returns a size.
- The 500-character limit of the closure-comment box is enforced by the browser and is not modelled.

## Findings

| source | as written | input that shows it | evidently intended | confidence | as-written member | corrected member |
|---|---|---|---|---|---|---|
| src/components/Header.tsx:32-46 | the filter bar stores the chosen option as a bare string in slots the app declares and initialises as lists; `filteredRules` then applies `.includes`, a substring test on a string (src/App.tsx:41) | choose rule 1, "All warehouse personnel must wear safety helmets at all times", as business rule: the text contains "All", so every rule stays listed | store a one-element list, so `.includes` tests membership and only rules with that description are listed | medium, not executed | ScalarFilter.HelmetSelectionAdmitsEveryRule | Header.HandleFilterChange |

=== FILE: commands.dfy ===
/** The state-changing commands of the dashboard (App.tsx), each a pure step
    on the thread list or on an id set. The clock reading `now` and the fresh
    ids the code derives from `Date.now()` are parameters. */
module Commands {

  import opened Model
  import opened Seqs

  /** One day, and the P2 service window a new thread is due in. */
  const DayMs: int := 24 * 60 * 60 * 1000
  const NewThreadSlaMs: int := 3 * DayMs

  /** The ids of a thread list, in order. */
  function Ids(ts: seq<Thread>): (r: seq<string>)
    ensures |r| == |ts|
    ensures forall i :: 0 <= i < |ts| ==> r[i] == ts[i].id
  {
    if |ts| == 0 then [] else [ts[0].id] + Ids(ts[1..])
  }

  /** Every comment sits in the thread its `threadId` names. */
  predicate CommentsBelong(ts: seq<Thread>) {
    forall i, c :: 0 <= i < |ts| && c in ts[i].comments ==> c.threadId == ts[i].id
  }

  /** Rewrites with `f` every thread whose id is `id` (the code's
      `prev.map(thread => thread.id === id ? … : thread)`). */
  function UpdateWhere(ts: seq<Thread>, id: string, f: Thread -> Thread): (r: seq<Thread>)
    ensures |r| == |ts|
    ensures forall i :: 0 <= i < |ts| ==> r[i] == (if ts[i].id == id then f(ts[i]) else ts[i])
  {
    seq(|ts|, i requires 0 <= i < |ts| => if ts[i].id == id then f(ts[i]) else ts[i])
  }

  /** `handleAddThread`: appends one Open, P2, `Action Required` thread with no
      comments, created and updated now and due three days from now. */
  function AddThread(ts: seq<Thread>, id: string, ruleId: string, title: string, now: int)
    : (r: seq<Thread>)
    ensures |r| == |ts| + 1 && r[..|ts|] == ts
    ensures var t := r[|ts|];
      && t.id == id && t.ruleId == ruleId && t.title == title
      && t.status == Open && t.actionStatus == ActionRequired && t.priority == P2
      && t.comments == []
      && t.createdAt == now && t.updatedAt == now
      && t.dueDate - t.createdAt == 259200000
  {
    ts + [Thread(id, title, ruleId, Open, ActionRequired, P2, [], now + NewThreadSlaMs, now, now)]
  }

  /** `handleAddComment`: the matching thread gains one unread comment at the
      end of its list and is marked updated now; every other thread, and
      every other field, is untouched. */
  function AddComment(ts: seq<Thread>, threadId: string, commentId: string, text: string,
                      author: Author, stamp: string, now: int): (r: seq<Thread>)
    ensures |r| == |ts|
    ensures forall i :: 0 <= i < |ts| && ts[i].id != threadId ==> r[i] == ts[i]
    ensures forall i :: 0 <= i < |ts| && ts[i].id == threadId ==>
      && |r[i].comments| == |ts[i].comments| + 1
      && r[i].comments[..|ts[i].comments|] == ts[i].comments
      && r[i].comments[|ts[i].comments|] == Comment(commentId, text, author, stamp, threadId, false)
      && r[i].updatedAt == now
      && r[i].(comments := ts[i].comments, updatedAt := ts[i].updatedAt) == ts[i]
  {
    var c := Comment(commentId, text, author, stamp, threadId, false);
    UpdateWhere(ts, threadId, (t: Thread) => t.(comments := t.comments + [c], updatedAt := now))
  }

  function Flip(s: ThreadStatus): ThreadStatus {
    if s == Open then Closed else Open
  }

  /** `handleCloseThread`: the matching thread's status flips Open/Closed and
      it is marked updated now. */
  function CloseThread(ts: seq<Thread>, threadId: string, now: int): (r: seq<Thread>)
    ensures |r| == |ts|
    ensures forall i :: 0 <= i < |ts| && ts[i].id != threadId ==> r[i] == ts[i]
    ensures forall i :: 0 <= i < |ts| && ts[i].id == threadId ==>
      && r[i].status != ts[i].status
      && r[i].updatedAt == now
      && r[i].(status := ts[i].status, updatedAt := ts[i].updatedAt) == ts[i]
  {
    UpdateWhere(ts, threadId, (t: Thread) => t.(status := Flip(t.status), updatedAt := now))
  }

  /** `handleActionStatusChange`: only the action status and the update time
      of the matching thread change. */
  function SetActionStatus(ts: seq<Thread>, threadId: string, a: ActionStatus, now: int)
    : (r: seq<Thread>)
    ensures |r| == |ts|
    ensures forall i :: 0 <= i < |ts| && ts[i].id != threadId ==> r[i] == ts[i]
    ensures forall i :: 0 <= i < |ts| && ts[i].id == threadId ==>
      && r[i].actionStatus == a
      && r[i].updatedAt == now
      && r[i].(actionStatus := ts[i].actionStatus, updatedAt := ts[i].updatedAt) == ts[i]
  {
    UpdateWhere(ts, threadId, (t: Thread) => t.(actionStatus := a, updatedAt := now))
  }

  /** `handlePriorityChange`: only the priority and the update time of the
      matching thread change. */
  function SetPriority(ts: seq<Thread>, threadId: string, p: Priority, now: int)
    : (r: seq<Thread>)
    ensures |r| == |ts|
    ensures forall i :: 0 <= i < |ts| && ts[i].id != threadId ==> r[i] == ts[i]
    ensures forall i :: 0 <= i < |ts| && ts[i].id == threadId ==>
      && r[i].priority == p
      && r[i].updatedAt == now
      && r[i].(priority := ts[i].priority, updatedAt := ts[i].updatedAt) == ts[i]
  {
    UpdateWhere(ts, threadId, (t: Thread) => t.(priority := p, updatedAt := now))
  }

  /** `handleToggleRow` / `handleToggleThread`: flips membership of `id` in an
      expansion set and of nothing else. */
  function Toggle(s: set<string>, id: string): (r: set<string>)
    ensures id in r <==> id !in s
    ensures forall x :: x != id ==> (x in r <==> x in s)
  {
    if id in s then s - {id} else s + {id}
  }

  /** Toggling the same id twice restores the set. */
  lemma ToggleInvolution(s: set<string>, id: string)
    ensures Toggle(Toggle(s, id), id) == s
  {
  }

  /** Closing twice restores every thread's status; apart from update
      times nothing else has changed. */
  lemma CloseTwiceRestores(ts: seq<Thread>, threadId: string, now1: int, now2: int)
    ensures var r := CloseThread(CloseThread(ts, threadId, now1), threadId, now2);
      && |r| == |ts|
      && forall i :: 0 <= i < |ts| ==> r[i].(updatedAt := ts[i].updatedAt) == ts[i]
  {
    var r1 := CloseThread(ts, threadId, now1);
    var r := CloseThread(r1, threadId, now2);
    forall i | 0 <= i < |ts| ensures r[i].(updatedAt := ts[i].updatedAt) == ts[i] {
      assert r1[i].id == ts[i].id;
    }
  }

  /** Adding a thread under a fresh id keeps thread ids unique and every
      comment in the thread it names. */
  lemma AddThreadKeepsInvariants(ts: seq<Thread>, id: string, ruleId: string, title: string,
                                 now: int)
    requires CommentsBelong(ts) && Distinct(Ids(ts))
    requires id !in Ids(ts)
    ensures var r := AddThread(ts, id, ruleId, title, now);
      CommentsBelong(r) && Distinct(Ids(r))
  {
    var r := AddThread(ts, id, ruleId, title, now);
    assert Ids(r) == Ids(ts) + [id];
    DistinctSnoc(Ids(ts), id);
  }

  /** A comment added to a thread carries that thread's id, and no thread
      is added, removed or renamed. */
  lemma AddCommentKeepsInvariants(ts: seq<Thread>, threadId: string, commentId: string,
                                  text: string, author: Author, stamp: string, now: int)
    requires CommentsBelong(ts)
    ensures var r := AddComment(ts, threadId, commentId, text, author, stamp, now);
      CommentsBelong(r) && Ids(r) == Ids(ts)
  {
    var r := AddComment(ts, threadId, commentId, text, author, stamp, now);
    forall i, c | 0 <= i < |r| && c in r[i].comments ensures c.threadId == r[i].id {
      if ts[i].id == threadId && c !in ts[i].comments {
        assert r[i].comments == ts[i].comments + [r[i].comments[|ts[i].comments|]];
      }
    }
  }
}

=== FILE: dialog.dfy ===
/** The close-thread dialog, in its two variants: the table's
    (src/components/DataTable.tsx:256-287, 792-825) and the chat panel's
    (src/components/ChatPanel.tsx:71-102, 979-1012). A handler does not
    change threads itself; it emits the app commands it calls, and
    `ApplyEffects` runs them through `Commands`. */
module CloseDialog {

  import opened Wrappers
  import opened Model
  import opened Text
  import Commands

  datatype Variant = TableVariant | PanelVariant

  /** `closeThreadDialog` with the `closureComment` draft. */
  datatype Dialog = Dialog(isOpen: bool, thread: Option<Thread>, closureComment: string)

  const Idle: Dialog := Dialog(false, None, "")

  /** The footer buttons. Every one but `CloseButton` cancels. */
  datatype Button = UnderstoodButton | CloseButton | CancelButton | ChangeStatusFirstButton

  datatype Event =
    | ToggleClicked(t: Thread)  // the Open/Closed switch on a thread
    | Pressed(b: Button)
    | Typed(text: string)       // the closure-comment text area

  /** The app commands a handler calls. */
  datatype Effect =
    | CloseThreadCmd(threadId: string)
    | AddCommentCmd(threadId: string, text: string, author: Author)
    | ToggleExpansionCmd(threadId: string)

  /** Only an Open thread marked `No Error` or `Error` may be closed. */
  predicate CanClose(t: Thread) {
    t.status == Open && (t.actionStatus == NoError || t.actionStatus == Error)
  }

  predicate Showing(d: Dialog) {
    d.isOpen && d.thread.Some?
  }

  /** The footer: the dialog offers the confirming button only for a thread
      that may be closed, and otherwise one button that cancels. */
  function Buttons(d: Dialog): (r: seq<Button>)
    ensures !Showing(d) <==> r == []
    ensures CloseButton in r <==> Showing(d) && CanClose(d.thread.value)
    ensures CloseButton in r ==> r == [CloseButton, CancelButton]
    ensures Showing(d) && CloseButton !in r ==> |r| == 1
  {
    if !Showing(d) then []
    else
      var t := d.thread.value;
      if t.status == Closed then [UnderstoodButton]
      else if t.actionStatus == NoError || t.actionStatus == Error then [CloseButton, CancelButton]
      else [ChangeStatusFirstButton]
  }

  /** The text the panel posts when a close carries a comment. */
  function ClosureText(comment: string): string {
    "[Thread Closed] " + Trim(comment)
  }

  /** One handler run: the next dialog state and the commands called, in order. */
  function Step(v: Variant, d: Dialog, e: Event): (r: (Dialog, seq<Effect>))
    ensures e.Pressed? && e.b != CloseButton ==> r == (Idle, [])
    ensures e.Typed? ==> r == (d.(closureComment := e.text), [])
    ensures e.ToggleClicked? && v == PanelVariant && e.t.status == Closed ==>
      r == (d.(closureComment := ""), [ToggleExpansionCmd(e.t.id)])
    ensures e.ToggleClicked? && (v == TableVariant || e.t.status == Open) ==>
      r == (Dialog(true, Some(e.t), ""), [])
    ensures e == Pressed(CloseButton) && d.thread.None? ==> r == (d, [])
    ensures e == Pressed(CloseButton) && d.thread.Some? ==>
      var id := d.thread.value.id;
      && r.0 == Idle
      && |r.1| >= 1 && r.1[|r.1| - 1] == CloseThreadCmd(id)
      && (v == TableVariant ==> r.1 == [CloseThreadCmd(id)])
      && (v == PanelVariant && Trim(d.closureComment) == "" ==> r.1 == [CloseThreadCmd(id)])
      && (v == PanelVariant && Trim(d.closureComment) != "" ==>
            r.1 == [AddCommentCmd(id, ClosureText(d.closureComment), QC), CloseThreadCmd(id)])
  {
    match e
    case ToggleClicked(t) =>
      if v == PanelVariant && t.status == Closed then (d.(closureComment := ""), [ToggleExpansionCmd(t.id)])
      else (Dialog(true, Some(t), ""), [])
    case Typed(text) => (d.(closureComment := text), [])
    case Pressed(b) =>
      if b != CloseButton then (Idle, [])
      else if d.thread.None? then (d, [])
      else
        var id := d.thread.value.id;
        var comment :=
          if v == PanelVariant && Trim(d.closureComment) != "" then
            [AddCommentCmd(id, ClosureText(d.closureComment), QC)]
          else [];
        (Idle, comment + [CloseThreadCmd(id)])
  }

  /** The dashboard state the commands act on. */
  datatype App = App(threads: seq<Thread>, expanded: set<string>)

  /** Runs the commands in order; `now`, the new comment's id and its
      timestamp are what the clock would have supplied. */
  function ApplyEffects(a: App, effects: seq<Effect>, now: int, commentId: string, stamp: string)
    : (r: App)
    ensures (forall i :: 0 <= i < |effects| ==> effects[i].ToggleExpansionCmd?) ==>
      r.threads == a.threads
    ensures (forall i :: 0 <= i < |effects| ==> !effects[i].ToggleExpansionCmd?) ==>
      r.expanded == a.expanded
    ensures |r.threads| == |a.threads|
    ensures forall i :: 0 <= i < |a.threads| ==> r.threads[i].id == a.threads[i].id
    decreases |effects|
  {
    if |effects| == 0 then a
    else
      var next :=
        match effects[0]
        case CloseThreadCmd(id) => a.(threads := Commands.CloseThread(a.threads, id, now))
        case AddCommentCmd(id, text, author) =>
          a.(threads := Commands.AddComment(a.threads, id, commentId, text, author, stamp, now))
        case ToggleExpansionCmd(id) => a.(expanded := Commands.Toggle(a.expanded, id));
      ApplyEffects(next, effects[1..], now, commentId, stamp)
  }

  /** The dialog's thread is a current copy: every thread with its id has its status. */
  predicate Current(d: Dialog, threads: seq<Thread>) {
    d.thread.Some? ==>
      forall i :: 0 <= i < |threads| && threads[i].id == d.thread.value.id ==>
        threads[i].status == d.thread.value.status
  }

  /** Status can only go from Open to Closed: every thread Closed before is Closed after. */
  predicate NoneReopened(before: seq<Thread>, after: seq<Thread>) {
    |after| == |before| &&
    forall i :: 0 <= i < |before| && before[i].status == Closed ==> after[i].status == Closed
  }

  /** Closing a thread known to be Open reopens nothing. */
  lemma CloseOpenReopensNothing(ts: seq<Thread>, id: string, now: int)
    requires forall i :: 0 <= i < |ts| && ts[i].id == id ==> ts[i].status == Open
    ensures NoneReopened(ts, Commands.CloseThread(ts, id, now))
  {
  }

  /** No footer button of either dialog, no press of the header's X, and no
      click on a thread's switch reopens a thread, provided the dialog's copy
      of its thread is current. */
  lemma {:induction false} NoPathReopens(v: Variant, d: Dialog, e: Event, a: App, now: int,
                                         commentId: string, stamp: string)
    requires Current(d, a.threads)
    requires e.Pressed? ==> e.b in Buttons(d) || (e.b == CancelButton && Showing(d))
    ensures NoneReopened(a.threads, ApplyEffects(a, Step(v, d, e).1, now, commentId, stamp).threads)
  {
    var effects := Step(v, d, e).1;
    if e == Pressed(CloseButton) {
      var t := d.thread.value;
      var id := t.id;
      assert CanClose(t);
      var ts := a.threads;
      if v == PanelVariant && Trim(d.closureComment) != "" {
        var c := AddCommentCmd(id, ClosureText(d.closureComment), QC);
        var ts1 := Commands.AddComment(ts, id, commentId, c.text, QC, stamp, now);
        assert effects == [c, CloseThreadCmd(id)];
        assert forall i :: 0 <= i < |ts| ==> ts1[i].status == ts[i].status && ts1[i].id == ts[i].id;
        CloseOpenReopensNothing(ts1, id, now);
        assert effects[1..] == [CloseThreadCmd(id)];
        assert effects[1..][1..] == [];
      } else {
        CloseOpenReopensNothing(ts, id, now);
        assert effects[1..] == [];
      }
    }
  }

  /** An event the interface can deliver in a state: a button the footer
      shows, the header's X (which runs the cancel handler) while the dialog
      is showing, or a click on the switch of a current copy of a thread. */
  predicate Deliverable(d: Dialog, a: App, e: Event) {
    && (e.Pressed? ==> e.b in Buttons(d) || (e.b == CancelButton && Showing(d)))
    && (e.ToggleClicked? ==> Current(Dialog(true, Some(e.t), ""), a.threads))
  }

  /** Handles `events` one after another, running each handler's commands
      before the next event. The clock readings are fixed for the run: no
      status depends on them. */
  function Run(v: Variant, d: Dialog, a: App, events: seq<Event>, now: int, commentId: string,
               stamp: string): (r: (Dialog, App))
    ensures |r.1.threads| == |a.threads|
    decreases |events|
  {
    if |events| == 0 then (d, a)
    else
      var (d', effects) := Step(v, d, events[0]);
      Run(v, d', ApplyEffects(a, effects, now, commentId, stamp), events[1..], now, commentId, stamp)
  }

  /** Every event of the run is deliverable when it arrives. */
  predicate Deliverables(v: Variant, d: Dialog, a: App, events: seq<Event>, now: int,
                         commentId: string, stamp: string)
    decreases |events|
  {
    |events| == 0 ||
      (Deliverable(d, a, events[0]) &&
       var (d', effects) := Step(v, d, events[0]);
       Deliverables(v, d', ApplyEffects(a, effects, now, commentId, stamp), events[1..],
                    now, commentId, stamp))
  }

  /** A handler run keeps the dialog's copy of its thread current. */
  lemma StepKeepsCurrent(v: Variant, d: Dialog, e: Event, a: App, now: int, commentId: string,
                         stamp: string)
    requires Current(d, a.threads) && Deliverable(d, a, e)
    ensures var (d', effects) := Step(v, d, e);
      Current(d', ApplyEffects(a, effects, now, commentId, stamp).threads)
  {
    var (d', effects) := Step(v, d, e);
    if e.ToggleClicked? && v == PanelVariant && e.t.status == Closed {
      assert effects[0].ToggleExpansionCmd? && |effects| == 1;
    }
  }

  /** No sequence of deliverable events, through either dialog, reopens a
      thread, provided the dialog starts with a current copy. */
  lemma {:induction false} RunReopensNothing(v: Variant, d: Dialog, a: App, events: seq<Event>,
                                             now: int, commentId: string, stamp: string)
    requires Current(d, a.threads)
    requires Deliverables(v, d, a, events, now, commentId, stamp)
    ensures NoneReopened(a.threads, Run(v, d, a, events, now, commentId, stamp).1.threads)
    decreases |events|
  {
    if |events| > 0 {
      var (d', effects) := Step(v, d, events[0]);
      var a' := ApplyEffects(a, effects, now, commentId, stamp);
      NoPathReopens(v, d, events[0], a, now, commentId, stamp);
      StepKeepsCurrent(v, d, events[0], a, now, commentId, stamp);
      RunReopensNothing(v, d', a', events[1..], now, commentId, stamp);
      assert Run(v, d, a, events, now, commentId, stamp) == Run(v, d', a', events[1..], now, commentId, stamp);
    }
  }

  /** In the panel, clicking the switch of a Closed thread only toggles its
      expansion: no thread changes, and only that id's membership flips. */
  lemma PanelClosedClickOnlyExpands(d: Dialog, t: Thread, a: App, now: int, commentId: string,
                                    stamp: string)
    requires t.status == Closed
    ensures var (d', effects) := Step(PanelVariant, d, ToggleClicked(t));
      var r := ApplyEffects(a, effects, now, commentId, stamp);
      && r.threads == a.threads
      && r.expanded == Commands.Toggle(a.expanded, t.id)
      && d'.isOpen == d.isOpen && d'.thread == d.thread
  {
    var effects := Step(PanelVariant, d, ToggleClicked(t)).1;
    assert effects[1..] == [];
  }

  /** In the table the same click only opens the dialog, whose sole button cancels. */
  lemma TableClosedClickOnlyWarns(d: Dialog, t: Thread)
    requires t.status == Closed
    ensures var (d', effects) := Step(TableVariant, d, ToggleClicked(t));
      && effects == []
      && Buttons(d') == [UnderstoodButton]
      && Step(TableVariant, d', Pressed(UnderstoodButton)) == (Idle, [])
  {
  }

  /** Confirming in the panel posts at most one comment, by QC, carrying the
      trimmed closure text, then closes the thread once. */
  lemma PanelConfirmEffects(d: Dialog, a: App, now: int, commentId: string, stamp: string)
    requires Showing(d) && CanClose(d.thread.value)
    ensures var (d', effects) := Step(PanelVariant, d, Pressed(CloseButton));
      var id := d.thread.value.id;
      var r := ApplyEffects(a, effects, now, commentId, stamp);
      && d' == Idle
      && r.expanded == a.expanded
      && r.threads == Commands.CloseThread(
           if Trim(d.closureComment) == "" then a.threads
           else Commands.AddComment(a.threads, id, commentId, ClosureText(d.closureComment),
                                    QC, stamp, now),
           id, now)
  {
    var effects := Step(PanelVariant, d, Pressed(CloseButton)).1;
    if Trim(d.closureComment) == "" {
      assert effects[1..] == [];
    } else {
      assert effects[1..][1..] == [];
    }
  }
}

=== FILE: export.dfy ===
/** The row list `handleExport` builds before handing it to the spreadsheet
    library (src/App.tsx:250-319): a header row, then for every listed rule
    either one placeholder row or one row per thread its expanded row shows.
    Dates are kept as the instant the code formats with the locale. */
module Export {

  import opened Model
  import opened Seqs
  import Filters

  datatype Cell = TextCell(s: string) | NumberCell(n: int) | DateCell(instant: int)

  type Row = seq<Cell>

  const Width: nat := 10

  const HeaderRow: Row := [
    TextCell("Module Name"), TextCell("Rule No"), TextCell("Business Rule Description"),
    TextCell("Status"), TextCell("Created At"), TextCell("Thread Title"),
    TextCell("Thread Status"), TextCell("Action Status"), TextCell("Priority"),
    TextCell("Thread Created At")]

  /** The five columns describing the rule. */
  function RuleCells(rule: BusinessRule): (r: Row)
    ensures |r| == 5
  {
    [TextCell(rule.moduleName), NumberCell(rule.ruleNo), TextCell(rule.description),
     TextCell(RuleStatusLabel(rule.status)), DateCell(rule.createdAt)]
  }

  /** The five columns describing a thread. */
  function ThreadCells(t: Thread): (r: Row)
    ensures |r| == 5
  {
    [TextCell(t.title), TextCell(ThreadStatusLabel(t.status)),
     TextCell(ActionStatusLabel(t.actionStatus)), TextCell(PriorityLabel(t.priority)),
     DateCell(t.createdAt)]
  }

  /** The thread columns of a rule with no listed thread. */
  const Placeholder: Row := [TextCell("N/A"), TextCell("N/A"), TextCell("N/A"), TextCell("N/A"),
                             TextCell("N/A")]

  /** Rows a rule contributes: at least one. */
  function Share(n: nat): nat {
    if n == 0 then 1 else n
  }

  /** The rows of a rule showing the threads `ts`: a placeholder row when
      there are none, otherwise one row per thread in order. */
  function RowsFor(rule: BusinessRule, ts: seq<Thread>): (r: seq<Row>)
    ensures |r| == Share(|ts|)
    ensures forall i :: 0 <= i < |r| ==> |r[i]| == Width && r[i][..5] == RuleCells(rule)
    ensures |ts| == 0 ==> r[0][5..] == Placeholder
    ensures forall i :: 0 <= i < |ts| ==> r[i][5..] == ThreadCells(ts[i])
  {
    if |ts| == 0 then [RuleCells(rule) + Placeholder]
    else seq(|ts|, i requires 0 <= i < |ts| => RuleCells(rule) + ThreadCells(ts[i]))
  }

  /** The rows of one rule, for the threads its expanded table row shows. */
  function RuleRows(rule: BusinessRule, threads: seq<Thread>, f: FilterState): seq<Row> {
    RowsFor(rule, Filters.RuleThreads(rule.id, threads, f))
  }

  /** Rows of a list of rules, in the list's order. */
  function Body(rules: seq<BusinessRule>, threads: seq<Thread>, f: FilterState): (r: seq<Row>)
    ensures forall i :: 0 <= i < |r| ==> |r[i]| == Width
  {
    if |rules| == 0 then []
    else RuleRows(rules[0], threads, f) + Body(rules[1..], threads, f)
  }

  /** `Σ max(1, n_r)` over the rules. */
  function RowCount(rules: seq<BusinessRule>, threads: seq<Thread>, f: FilterState): nat {
    if |rules| == 0 then 0
    else Share(|Filters.RuleThreads(rules[0].id, threads, f)|) + RowCount(rules[1..], threads, f)
  }

  lemma {:induction false} BodyLength(rules: seq<BusinessRule>, threads: seq<Thread>, f: FilterState)
    ensures |Body(rules, threads, f)| == RowCount(rules, threads, f)
  {
    if |rules| > 0 {
      BodyLength(rules[1..], threads, f);
    }
  }

  /** The exported rows: the header, then the rows of every listed rule. */
  function ExportRows(rules: seq<BusinessRule>, threads: seq<Thread>, f: FilterState)
    : (r: seq<Row>)
    ensures |r| == 1 + RowCount(Filters.FilteredRules(rules, threads, f), threads, f)
    ensures r[0] == HeaderRow
    ensures r[1..] == Body(Filters.FilteredRules(rules, threads, f), threads, f)
    ensures forall i :: 0 <= i < |r| ==> |r[i]| == Width
  {
    var listed := Filters.FilteredRules(rules, threads, f);
    BodyLength(listed, threads, f);
    WithHeader(Body(listed, threads, f))
  }

  /** The header row followed by `body`. */
  function WithHeader(body: seq<Row>): (r: seq<Row>)
    requires forall i :: 0 <= i < |body| ==> |body[i]| == Width
    ensures |r| == 1 + |body| && r[0] == HeaderRow && r[1..] == body
    ensures forall i :: 0 <= i < |r| ==> |r[i]| == Width
  {
    [HeaderRow] + body
  }

  /** The rows of a concatenation of rule lists are the concatenated rows. */
  lemma {:induction false} BodyAppend(a: seq<BusinessRule>, b: seq<BusinessRule>,
                                      threads: seq<Thread>, f: FilterState)
    ensures Body(a + b, threads, f) == Body(a, threads, f) + Body(b, threads, f)
  {
    if |a| == 0 {
      assert a + b == b;
    } else {
      var x, t := a[0], a[1..];
      ConsAppend(a, b);
      BodyCons(x, t + b, threads, f);
      BodyCons(x, t, threads, f);
      BodyAppend(t, b, threads, f);
      AppendAssoc(RuleRows(x, threads, f), Body(t, threads, f), Body(b, threads, f));
    }
  }

  lemma BodyCons(x: BusinessRule, rest: seq<BusinessRule>, threads: seq<Thread>, f: FilterState)
    ensures Body([x] + rest, threads, f) == RuleRows(x, threads, f) + Body(rest, threads, f)
  {
    assert ([x] + rest)[0] == x && ([x] + rest)[1..] == rest;
  }

  lemma BodySnocLength(before: seq<BusinessRule>, x: BusinessRule, threads: seq<Thread>, f: FilterState)
    ensures |Body(before + [x], threads, f)| == |Body(before, threads, f)| + |RuleRows(x, threads, f)|
  {
    BodyAppend(before, [x], threads, f);
    BodyCons(x, [], threads, f);
    assert [x] + [] == [x];
  }

  /** The rows of the `k`-th rule sit between those of the rules before it
      and those of the rules after it. */
  lemma BodySplit(rules: seq<BusinessRule>, threads: seq<Thread>, f: FilterState, k: nat)
    requires k < |rules|
    ensures Body(rules, threads, f)
         == Body(rules[..k], threads, f) + RuleRows(rules[k], threads, f) + Body(rules[k + 1..], threads, f)
  {
    var before, rest := rules[..k], rules[k + 1..];
    SplitAt(rules, k);
    BodyAppend(before, [rules[k]] + rest, threads, f);
    BodyCons(rules[k], rest, threads, f);
    AppendAssoc(Body(before, threads, f), RuleRows(rules[k], threads, f), Body(rest, threads, f));
  }

  /** Those rows are one contiguous block, starting after the rows of the
      rules before it. */
  lemma BodyBlock(rules: seq<BusinessRule>, threads: seq<Thread>, f: FilterState, k: nat)
    requires k < |rules|
    ensures RowCount(rules[..k + 1], threads, f)
         == RowCount(rules[..k], threads, f) + |RuleRows(rules[k], threads, f)|
    ensures RowCount(rules[..k + 1], threads, f) <= |Body(rules, threads, f)|
    ensures Body(rules, threads, f)[RowCount(rules[..k], threads, f)..RowCount(rules[..k + 1], threads, f)]
         == RuleRows(rules[k], threads, f)
  {
    var before, x := rules[..k], rules[k];
    assert rules[..k + 1] == before + [x];
    BodySnocLength(before, x, threads, f);
    BodyLength(before, threads, f);
    BodyLength(rules[..k + 1], threads, f);
    BodySplit(rules, threads, f, k);
    SliceMiddle(Body(before, threads, f), RuleRows(x, threads, f), Body(rules[k + 1..], threads, f));
  }

  /** In the export, the listed rules' blocks follow the header in the order
      the table lists the rules: the export is the header, the rows of the
      rules listed before the `k`-th (`Σ max(1, n_r)` of them), that rule's
      own rows, then the rows of the rules after it; a rule showing no
      thread contributes its one placeholder row. */
  lemma ExportBlock(rules: seq<BusinessRule>, threads: seq<Thread>, f: FilterState, k: nat)
    requires k < |Filters.FilteredRules(rules, threads, f)|
    ensures var listed := Filters.FilteredRules(rules, threads, f);
      ExportRows(rules, threads, f)
        == [HeaderRow] + (Body(listed[..k], threads, f) + RuleRows(listed[k], threads, f)
                          + Body(listed[k + 1..], threads, f))
    ensures var listed := Filters.FilteredRules(rules, threads, f);
      |Body(listed[..k], threads, f)| == RowCount(listed[..k], threads, f)
    ensures var listed := Filters.FilteredRules(rules, threads, f);
      Filters.RuleThreads(listed[k].id, threads, f) == [] ==>
        RuleRows(listed[k], threads, f) == [RuleCells(listed[k]) + Placeholder]
  {
    var listed := Filters.FilteredRules(rules, threads, f);
    HeadTail(ExportRows(rules, threads, f));
    BodySplit(listed, threads, f, k);
    BodyLength(listed[..k], threads, f);
    if Filters.RuleThreads(listed[k].id, threads, f) == [] {
      RuleRowsNone(listed[k], threads, f);
    }
  }

  lemma HeadTail(r: seq<Row>)
    requires |r| >= 1
    ensures r == [r[0]] + r[1..]
  {
  }

  /** A rule showing no thread contributes exactly its placeholder row. */
  lemma RuleRowsNone(rule: BusinessRule, threads: seq<Thread>, f: FilterState)
    requires Filters.RuleThreads(rule.id, threads, f) == []
    ensures RuleRows(rule, threads, f) == [RuleCells(rule) + Placeholder]
  {
  }

  /** Every thread the table would show under a listed rule has its row. */
  lemma {:induction false} BodyHasThread(rules: seq<BusinessRule>, threads: seq<Thread>, f: FilterState,
                                         rule: BusinessRule, t: Thread)
    requires rule in rules
    requires t in threads && t.ruleId == rule.id && Filters.ThreadPasses(f, t)
    ensures RuleCells(rule) + ThreadCells(t) in Body(rules, threads, f)
  {
    if rules[0] == rule {
      var ts := Filters.RuleThreads(rule.id, threads, f);
      var i :| 0 <= i < |ts| && ts[i] == t;
      var rows := RuleRows(rule, threads, f);
      assert rows[i] == rows[i][..5] + rows[i][5..];
      assert rows[i] in Body(rules, threads, f);
    } else {
      BodyHasThread(rules[1..], threads, f, rule, t);
    }
  }

  /** `row` describes `rule` and either one of its shown threads or, when
      it shows none, the placeholder. */
  predicate RowOf(rule: BusinessRule, threads: seq<Thread>, f: FilterState, row: Row) {
    var ts := Filters.RuleThreads(rule.id, threads, f);
    && |row| == Width
    && row[..5] == RuleCells(rule)
    && ((ts == [] && row[5..] == Placeholder) || (exists t :: t in ts && row[5..] == ThreadCells(t)))
  }

  /** Every row after the header describes a listed rule and either one of
      its shown threads or, when it shows none, the placeholder. */
  lemma {:induction false} BodyRowsSound(rules: seq<BusinessRule>, threads: seq<Thread>,
                                         f: FilterState, row: Row)
    requires row in Body(rules, threads, f)
    ensures exists rule :: rule in rules && RowOf(rule, threads, f, row)
  {
    var head := RuleRows(rules[0], threads, f);
    assert Body(rules, threads, f) == head + Body(rules[1..], threads, f);
    if row in head {
      RowsForSound(rules[0], Filters.RuleThreads(rules[0].id, threads, f), row);
      assert RowOf(rules[0], threads, f, row);
    } else {
      BodyRowsSound(rules[1..], threads, f, row);
      var rule :| rule in rules[1..] && RowOf(rule, threads, f, row);
      assert rule in rules;
    }
  }

  lemma RowsForSound(rule: BusinessRule, ts: seq<Thread>, row: Row)
    requires row in RowsFor(rule, ts)
    ensures |row| == Width && row[..5] == RuleCells(rule)
    ensures (ts == [] && row[5..] == Placeholder) || (exists t :: t in ts && row[5..] == ThreadCells(t))
  {
    var rows := RowsFor(rule, ts);
    var i :| 0 <= i < |rows| && rows[i] == row;
    if |ts| > 0 {
      assert ts[i] in ts;
    }
  }

  /** The export lists every thread the table shows: a thread whose rule is
      listed and which passes the thread filters has its row (the converse
      direction is `BodyRowsSound`). */
  lemma ExportMatchesTable(rules: seq<BusinessRule>, threads: seq<Thread>, f: FilterState,
                           rule: BusinessRule, t: Thread)
    requires t in threads && t.ruleId == rule.id && Filters.ThreadPasses(f, t)
    requires rule in Filters.FilteredRules(rules, threads, f)
    ensures RuleCells(rule) + ThreadCells(t) in ExportRows(rules, threads, f)
  {
    BodyHasThread(Filters.FilteredRules(rules, threads, f), threads, f, rule, t);
  }
}

=== FILE: filters.dfy ===
/** The filter/query engine: which rules the table shows (App.tsx
    `filteredRules`), which threads a rule's expanded row and the export list
    (DataTable.tsx, App.tsx `handleExport`), and which threads the chat panel
    shows (App.tsx `currentRuleThreads`). */
module Filters {

  import opened Wrappers
  import opened Model
  import opened Seqs
  import opened Ordering

  /** The four conjuncts of rule visibility, as the code evaluates them. */
  predicate RuleVisible(f: FilterState, threads: seq<Thread>, r: BusinessRule) {
    var moduleMatch := f.moduleName == All || r.moduleName == f.moduleName;
    var statusMatch := All in f.status || RuleStatusLabel(r.status) in f.status;
    var businessRuleMatch := All in f.businessRule || r.description in f.businessRule;
    var threadTitleMatch :=
      if All !in f.threadTitle then
        Any(Keep(threads, (t: Thread) => t.ruleId == r.id), (t: Thread) => t.title in f.threadTitle)
      else true;
    moduleMatch && statusMatch && businessRuleMatch && threadTitleMatch
  }

  /** The rules the table lists. */
  function FilteredRules(rules: seq<BusinessRule>, threads: seq<Thread>, f: FilterState)
    : (r: seq<BusinessRule>)
    ensures Subseq(r, rules)
    ensures forall rule :: rule in r <==>
      && rule in rules
      && (f.moduleName == All || rule.moduleName == f.moduleName)
      && Admits(f.status, RuleStatusLabel(rule.status))
      && Admits(f.businessRule, rule.description)
      && (All in f.threadTitle ||
          exists t :: t in threads && t.ruleId == rule.id && t.title in f.threadTitle)
    ensures forall rule :: rule in r ==> multiset(r)[rule] == multiset(rules)[rule]
  {
    var r := Keep(rules, (rule: BusinessRule) => RuleVisible(f, threads, rule));
    KeepCounts(rules, (rule: BusinessRule) => RuleVisible(f, threads, rule));
    assert forall rule :: RuleVisible(f, threads, rule) <==>
      && (f.moduleName == All || rule.moduleName == f.moduleName)
      && Admits(f.status, RuleStatusLabel(rule.status))
      && Admits(f.businessRule, rule.description)
      && (All in f.threadTitle ||
          exists t :: t in threads && t.ruleId == rule.id && t.title in f.threadTitle) by {
      forall rule ensures RuleVisible(f, threads, rule) <==>
        && (f.moduleName == All || rule.moduleName == f.moduleName)
        && Admits(f.status, RuleStatusLabel(rule.status))
        && Admits(f.businessRule, rule.description)
        && (All in f.threadTitle ||
            exists t :: t in threads && t.ruleId == rule.id && t.title in f.threadTitle)
      {
        var own := Keep(threads, (t: Thread) => t.ruleId == rule.id);
        if exists t :: t in threads && t.ruleId == rule.id && t.title in f.threadTitle {
          var t :| t in threads && t.ruleId == rule.id && t.title in f.threadTitle;
          assert t in own;
        }
      }
    }
    r
  }

  /** A thread passes the thread-status and thread-title dimensions. */
  predicate ThreadPasses(f: FilterState, t: Thread) {
    Admits(f.threadStatus, ThreadStatusLabel(t.status)) && Admits(f.threadTitle, t.title)
  }

  /** The thread-level filter chain as the code writes it: each dimension
      filters only when its selection lacks "All". */
  function ApplyThreadFilters(ts: seq<Thread>, f: FilterState): seq<Thread> {
    var byStatus :=
      if All !in f.threadStatus then Keep(ts, (t: Thread) => ThreadStatusLabel(t.status) in f.threadStatus)
      else ts;
    if All !in f.threadTitle then Keep(byStatus, (t: Thread) => t.title in f.threadTitle)
    else byStatus
  }

  /** The conditional chain filters by the conjunction of both dimensions. */
  lemma ThreadFilterChain(ts: seq<Thread>, f: FilterState)
    ensures ApplyThreadFilters(ts, f) == Keep(ts, (t: Thread) => ThreadPasses(f, t))
  {
    var ps := (t: Thread) => Admits(f.threadStatus, ThreadStatusLabel(t.status));
    var pt := (t: Thread) => Admits(f.threadTitle, t.title);
    var byStatus := Keep(ts, ps);
    if All in f.threadStatus {
      KeepAll(ts, ps);
    } else {
      KeepSame(ts, ps, (t: Thread) => ThreadStatusLabel(t.status) in f.threadStatus);
    }
    if All in f.threadTitle {
      KeepAll(byStatus, pt);
    } else {
      KeepSame(byStatus, pt, (t: Thread) => t.title in f.threadTitle);
    }
    KeepKeep(ts, ps, pt, (t: Thread) => ThreadPasses(f, t));
  }

  /** The threads of one rule as its expanded row lists them (and as the
      export walks them): the rule's threads that pass both thread filters,
      Open before Closed. */
  function RuleThreads(ruleId: string, threads: seq<Thread>, f: FilterState): (r: seq<Thread>)
    ensures r == OpenFirst(Keep(threads, (t: Thread) => t.ruleId == ruleId && ThreadPasses(f, t)))
    ensures forall t :: t in r <==> t in threads && t.ruleId == ruleId && ThreadPasses(f, t)
  {
    var own := Keep(threads, (t: Thread) => t.ruleId == ruleId);
    KeepKeep(threads, (t: Thread) => t.ruleId == ruleId, (t: Thread) => ThreadPasses(f, t),
             (t: Thread) => t.ruleId == ruleId && ThreadPasses(f, t));
    ThreadFilterChain(own, f);
    var r := OpenFirst(ApplyThreadFilters(own, f));
    r
  }

  /** The threads the chat panel shows: nothing without a rule; in thread
      context the one selected thread; otherwise the rule's threads. */
  function CurrentRuleThreads(threads: seq<Thread>, f: FilterState, panel: ChatPanelState)
    : (r: seq<Thread>)
    ensures !IsSet(panel.ruleId) ==> r == []
    ensures forall t :: t in r ==> t in threads && ThreadPasses(f, t)
    ensures IsSet(panel.ruleId) && panel.context == ThreadContext && IsSet(panel.threadId) ==>
      forall t :: t in r <==> t in threads && ThreadPasses(f, t) && t.id == panel.threadId.value
    ensures IsSet(panel.ruleId) && !(panel.context == ThreadContext && IsSet(panel.threadId)) ==>
      forall t :: t in r <==> t in threads && ThreadPasses(f, t) && t.ruleId == panel.ruleId.value
    ensures SortedByStatus(r)
  {
    if !IsSet(panel.ruleId) then []
    else
      ThreadFilterChain(threads, f);
      var sorted := OpenFirst(ApplyThreadFilters(threads, f));
      if panel.context == ThreadContext && IsSet(panel.threadId) then
        var tid := panel.threadId.value;
        KeepSortedSorted(sorted, (t: Thread) => t.id == tid);
        Keep(sorted, (t: Thread) => t.id == tid)
      else
        var rid := panel.ruleId.value;
        KeepSortedSorted(sorted, (t: Thread) => t.ruleId == rid);
        Keep(sorted, (t: Thread) => t.ruleId == rid)
  }

  /** Filtering keeps a list sorted. */
  lemma {:induction false} KeepSortedSorted(ts: seq<Thread>, p: Thread -> bool)
    requires SortedByStatus(ts)
    ensures SortedByStatus(Keep(ts, p))
  {
    SortedIsPartition(ts);
    KeepOpenFirst(ts, p);
    StableSortIsOpenFirst(ts, ts);
  }

  /** In rule context the chat panel shows exactly the list the rule's
      expanded table row shows, in the same order. */
  lemma PanelAgreesWithTable(threads: seq<Thread>, f: FilterState, panel: ChatPanelState)
    requires IsSet(panel.ruleId)
    requires !(panel.context == ThreadContext && IsSet(panel.threadId))
    ensures CurrentRuleThreads(threads, f, panel) == RuleThreads(panel.ruleId.value, threads, f)
  {
    var rid := panel.ruleId.value;
    var passing := Keep(threads, (t: Thread) => ThreadPasses(f, t));
    ThreadFilterChain(threads, f);
    ThreadFilterChain(Keep(threads, (t: Thread) => t.ruleId == rid), f);
    KeepOpenFirst(passing, (t: Thread) => t.ruleId == rid);
    KeepKeep(threads, (t: Thread) => ThreadPasses(f, t), (t: Thread) => t.ruleId == rid,
             (t: Thread) => t.ruleId == rid && ThreadPasses(f, t));
  }

  /** In thread context the chat panel shows each passing thread with the
      selected id once per occurrence in the thread list, Open before Closed. */
  lemma PanelShowsSelectedThread(threads: seq<Thread>, f: FilterState, panel: ChatPanelState)
    requires IsSet(panel.ruleId)
    requires panel.context == ThreadContext && IsSet(panel.threadId)
    ensures CurrentRuleThreads(threads, f, panel)
      == OpenFirst(Keep(threads, (t: Thread) => t.id == panel.threadId.value && ThreadPasses(f, t)))
  {
    var tid := panel.threadId.value;
    var passing := Keep(threads, (t: Thread) => ThreadPasses(f, t));
    ThreadFilterChain(threads, f);
    KeepOpenFirst(passing, (t: Thread) => t.id == tid);
    KeepKeep(threads, (t: Thread) => ThreadPasses(f, t), (t: Thread) => t.id == tid,
             (t: Thread) => t.id == tid && ThreadPasses(f, t));
  }
}

=== FILE: header.dfy ===
/** The filter bar (src/components/Header.tsx): changing one selection, and
    the thread-title options offered once a business rule is chosen. Every
    selection is written as the one-element list the filter type declares;
    the scalar the code actually writes is modelled in `ScalarFilter`. */
module Header {

  import opened Wrappers
  import opened Model
  import opened Seqs

  /** The five drop-downs. */
  datatype FilterKey = ModuleKey | StatusKey | ThreadStatusKey | BusinessRuleKey | ThreadTitleKey

  /** The selection under one key, the module name as a one-element list. */
  function Get(f: FilterState, k: FilterKey): seq<string> {
    match k
    case ModuleKey => [f.moduleName]
    case StatusKey => f.status
    case ThreadStatusKey => f.threadStatus
    case BusinessRuleKey => f.businessRule
    case ThreadTitleKey => f.threadTitle
  }

  /** `handleFilterChange`: the chosen key takes the chosen value; choosing a
      business rule also resets the thread title to "All"; nothing else moves. */
  function HandleFilterChange(f: FilterState, key: FilterKey, v: string): (r: FilterState)
    ensures Get(r, key) == [v]
    ensures key == BusinessRuleKey ==> Get(r, ThreadTitleKey) == [All]
    ensures forall k :: k != key && !(key == BusinessRuleKey && k == ThreadTitleKey) ==>
      Get(r, k) == Get(f, k)
  {
    match key
    case ModuleKey => f.(moduleName := v)
    case StatusKey => f.(status := [v])
    case ThreadStatusKey => f.(threadStatus := [v])
    case BusinessRuleKey => f.(businessRule := [v], threadTitle := [All])
    case ThreadTitleKey => f.(threadTitle := [v])
  }

  /** Two filter states agreeing under every key are the same state. */
  lemma GetDetermines(f: FilterState, g: FilterState)
    requires forall k :: Get(f, k) == Get(g, k)
    ensures f == g
  {
    assert Get(f, ModuleKey) == Get(g, ModuleKey);
    assert Get(f, StatusKey) == Get(g, StatusKey);
    assert Get(f, ThreadStatusKey) == Get(g, ThreadStatusKey);
    assert Get(f, BusinessRuleKey) == Get(g, BusinessRuleKey);
    assert Get(f, ThreadTitleKey) == Get(g, ThreadTitleKey);
    assert [f.moduleName][0] == [g.moduleName][0];
  }

  /** Choosing the same value twice is choosing it once, and choosing a
      business rule after any thread title forgets that title. */
  lemma FilterChangeIdempotent(f: FilterState, key: FilterKey, v: string, title: string)
    ensures HandleFilterChange(HandleFilterChange(f, key, v), key, v) == HandleFilterChange(f, key, v)
    ensures HandleFilterChange(HandleFilterChange(f, ThreadTitleKey, title), BusinessRuleKey, v)
            == HandleFilterChange(f, BusinessRuleKey, v)
  {
    var once := HandleFilterChange(f, key, v);
    var twice := HandleFilterChange(once, key, v);
    forall k ensures Get(twice, k) == Get(once, k) { }
    GetDetermines(twice, once);
    var a := HandleFilterChange(HandleFilterChange(f, ThreadTitleKey, title), BusinessRuleKey, v);
    var b := HandleFilterChange(f, BusinessRuleKey, v);
    forall k ensures Get(a, k) == Get(b, k) { }
    GetDetermines(a, b);
  }

  /** Rule `i` is the first whose description is selected. */
  predicate FirstMatchAt(rules: seq<BusinessRule>, sel: seq<string>, i: int) {
    && 0 <= i < |rules|
    && rules[i].description in sel
    && forall j :: 0 <= j < i ==> rules[j].description !in sel
  }

  /** `businessRules.find(rule => rule.description === d)` for a selection:
      the first rule whose description is selected. */
  function FindRule(rules: seq<BusinessRule>, sel: seq<string>): (r: Option<BusinessRule>)
    ensures r.None? <==> forall i :: 0 <= i < |rules| ==> rules[i].description !in sel
    ensures r.Some? ==> exists i :: FirstMatchAt(rules, sel, i) && rules[i] == r.value
  {
    if |rules| == 0 then None
    else if rules[0].description in sel then
      assert FirstMatchAt(rules, sel, 0);
      Some(rules[0])
    else
      var rest := FindRule(rules[1..], sel);
      assert rest.Some? ==> exists i :: FirstMatchAt(rules, sel, i) && rules[i] == rest.value by {
        if rest.Some? {
          var i :| FirstMatchAt(rules[1..], sel, i) && rules[1..][i] == rest.value;
          assert FirstMatchAt(rules, sel, i + 1);
        }
      }
      rest
  }

  /** The titles of a thread list, in order. */
  function Titles(ts: seq<Thread>): (r: seq<string>)
    ensures |r| == |ts|
    ensures forall i :: 0 <= i < |ts| ==> r[i] == ts[i].title
  {
    seq(|ts|, i requires 0 <= i < |ts| => ts[i].title)
  }

  /** A title is listed iff some thread carries it. */
  lemma TitlesMembership(ts: seq<Thread>)
    ensures forall x :: x in Titles(ts) <==> exists t :: t in ts && t.title == x
  {
    forall x ensures x in Titles(ts) <==> exists t :: t in ts && t.title == x {
      if x in Titles(ts) {
        var i :| 0 <= i < |ts| && Titles(ts)[i] == x;
        assert ts[i] in ts;
      }
      if exists t :: t in ts && t.title == x {
        var t :| t in ts && t.title == x;
        var i :| 0 <= i < |ts| && ts[i] == t;
        assert Titles(ts)[i] == x;
      }
    }
  }

  /** The threads of one rule, in order. */
  function OwnThreads(threads: seq<Thread>, ruleId: string): seq<Thread> {
    Keep(threads, (t: Thread) => t.ruleId == ruleId)
  }

  /** The distinct titles of a rule's threads, in first-occurrence order. */
  function RuleTitles(threads: seq<Thread>, ruleId: string): (r: seq<string>)
    ensures Distinct(r)
    ensures forall x :: x in r <==> exists t :: t in threads && t.ruleId == ruleId && t.title == x
  {
    TitlesMembership(OwnThreads(threads, ruleId));
    Dedup(Titles(OwnThreads(threads, ruleId)))
  }

  /** `getCascadingThreadTitleOptions`: with "All" selected, or no rule
      matching the selection, the given options; otherwise "All" followed by
      the distinct titles of the first matching rule's threads. */
  function CascadingTitleOptions(sel: seq<string>, rules: seq<BusinessRule>,
                                 threads: seq<Thread>, options: seq<string>): (r: seq<string>)
    ensures All in sel ==> r == options
    ensures FindRule(rules, sel).None? ==> r == options
    ensures All !in sel && FindRule(rules, sel).Some? ==>
      var rule := FindRule(rules, sel).value;
      && |r| >= 1 && r[0] == All
      && Distinct(r[1..])
      && forall x :: x in r[1..] <==> exists t :: t in threads && t.ruleId == rule.id && t.title == x
  {
    if All in sel then options
    else
      match FindRule(rules, sel)
      case None => options
      case Some(rule) => [All] + RuleTitles(threads, rule.id)
  }

  /** The cascading titles keep first-occurrence order: the titles of the
      rule's threads among the first `k` threads come first, in the same order. */
  lemma CascadeFirstOccurrence(threads: seq<Thread>, ruleId: string, k: nat)
    requires k <= |threads|
    ensures RuleTitles(threads[..k], ruleId) <= RuleTitles(threads, ruleId)
  {
    var own := OwnThreads(threads, ruleId);
    var ownPrefix := OwnThreads(threads[..k], ruleId);
    var m := |ownPrefix|;
    OwnThreadsPrefix(threads, ruleId, k);
    assert own[..m] == ownPrefix;
    TitlesPrefix(own, m);
    DedupPrefix(Titles(own), m);
    assert Dedup(Titles(ownPrefix)) <= Dedup(Titles(own));
    assert RuleTitles(threads[..k], ruleId) == Dedup(Titles(ownPrefix));
    assert RuleTitles(threads, ruleId) == Dedup(Titles(own));
  }

  lemma OwnThreadsPrefix(threads: seq<Thread>, ruleId: string, k: nat)
    requires k <= |threads|
    ensures OwnThreads(threads[..k], ruleId) <= OwnThreads(threads, ruleId)
  {
    KeepPrefix(threads, k, (t: Thread) => t.ruleId == ruleId);
  }

  lemma TitlesPrefix(ts: seq<Thread>, m: nat)
    requires m <= |ts|
    ensures Titles(ts)[..m] == Titles(ts[..m])
  {
  }

  /** Choosing a rule's description in the bar narrows the title options to
      that rule's titles whenever that description is the first rule's with it. */
  lemma ChoosingRuleCascades(f: FilterState, rules: seq<BusinessRule>, threads: seq<Thread>,
                             options: seq<string>, i: nat)
    requires i < |rules|
    requires rules[i].description != All
    requires forall j :: 0 <= j < i ==> rules[j].description != rules[i].description
    ensures var g := HandleFilterChange(f, BusinessRuleKey, rules[i].description);
      CascadingTitleOptions(g.businessRule, rules, threads, options)
        == [All] + RuleTitles(threads, rules[i].id)
  {
    var d := rules[i].description;
    var found := FindRule(rules, [d]);
    var n :| FirstMatchAt(rules, [d], n) && rules[n] == found.value;
    assert n == i;
  }
}

=== FILE: model.dfy ===
/** The records of the QC checklist dashboard (src/types/index.ts): business
    rules, discussion threads and their comments, and the filter selection.
    Identifiers and free text are strings; instants the code does arithmetic
    on (creation, update and due times) are milliseconds since the epoch;
    a comment's timestamp stays a string because the code compares it as one. */
module Model {

  import opened Wrappers

  datatype RuleStatus = Pass | Fail | NotApplicable | RuleOpen

  datatype ThreadStatus = Open | Closed

  /** Every action status the code reads or writes: the declared three
      (`Error`, `Non-Error`, `Mere Observation`), the default given to new
      threads (`Action Required`) and the options offered by the status
      drop-down (`In Progress`, `Completed`, `On Hold`, `No Error`, `Error`). */
  datatype ActionStatus =
    | ActionRequired | InProgress | Completed | OnHold
    | NoError | Error | NonError | MereObservation

  datatype Priority = P1 | P2 | P3

  datatype Author = QC | SM

  datatype Comment = Comment(
    id: string,
    text: string,
    author: Author,
    timestamp: string,
    threadId: string,
    isRead: bool)

  datatype Thread = Thread(
    id: string,
    title: string,
    ruleId: string,
    status: ThreadStatus,
    actionStatus: ActionStatus,
    priority: Priority,
    comments: seq<Comment>,
    dueDate: int,
    createdAt: int,
    updatedAt: int)

  datatype BusinessRule = BusinessRule(
    id: string,
    ruleNo: int,
    description: string,
    status: RuleStatus,
    moduleName: string,
    createdAt: int)

  /** The filter selection. Every multi-valued dimension is a list of chosen
      values in which the sentinel "All" means "no constraint". */
  datatype FilterState = FilterState(
    moduleName: string,
    status: seq<string>,
    threadStatus: seq<string>,
    businessRule: seq<string>,
    threadTitle: seq<string>)

  /** Which conversation the chat panel shows: every thread of a rule, or one thread. */
  datatype Context = RuleContext | ThreadContext

  /** The part of the chat panel state that selects its threads; position and
      size are handled by the panel geometry. A `None` or empty id is unset. */
  datatype ChatPanelState = ChatPanelState(
    ruleId: Option<string>,
    threadId: Option<string>,
    context: Context)

  /** JavaScript truthiness of an optional id: present and not "". */
  predicate IsSet(id: Option<string>) {
    id.Some? && id.value != ""
  }

  const All: string := "All"

  /** The wildcard test every filter dimension applies: the selection holds
      "All" or the value itself. */
  predicate Admits(selection: seq<string>, value: string) {
    All in selection || value in selection
  }

  /** The text the code stores and compares for each enumeration value. */
  function RuleStatusLabel(s: RuleStatus): string {
    match s
    case Pass => "Pass"
    case Fail => "Fail"
    case NotApplicable => "N/A"
    case RuleOpen => "Open"
  }

  function ThreadStatusLabel(s: ThreadStatus): string {
    match s
    case Open => "Open"
    case Closed => "Closed"
  }

  function ActionStatusLabel(a: ActionStatus): string {
    match a
    case ActionRequired => "Action Required"
    case InProgress => "In Progress"
    case Completed => "Completed"
    case OnHold => "On Hold"
    case NoError => "No Error"
    case Error => "Error"
    case NonError => "Non-Error"
    case MereObservation => "Mere Observation"
  }

  function PriorityLabel(p: Priority): string {
    match p
    case P1 => "P1"
    case P2 => "P2"
    case P3 => "P3"
  }

  /** Labels identify their values, so comparing labels (as the code does)
      is comparing values. */
  lemma LabelsInjective()
    ensures forall a, b :: ThreadStatusLabel(a) == ThreadStatusLabel(b) ==> a == b
    ensures forall a, b :: ActionStatusLabel(a) == ActionStatusLabel(b) ==> a == b
    ensures forall a, b :: RuleStatusLabel(a) == RuleStatusLabel(b) ==> a == b
    ensures forall a :: ThreadStatusLabel(a) != All
    ensures forall a :: RuleStatusLabel(a) != All
  {
  }
}

=== FILE: ordering.dfy ===
/** Thread ordering in every displayed list: Open threads before Closed ones.
    The code sorts with a comparator that answers 0 for equal statuses and
    relies on `Array.prototype.sort` being stable, so the result is the
    stable partition of the list into its Open and its Closed threads. */
module Ordering {

  import opened Model
  import opened Seqs

  /** The comparator handed to `sort`: negative puts `a` first. */
  function Compare(a: Thread, b: Thread): int {
    if a.status == Open && b.status == Closed then -1
    else if a.status == Closed && b.status == Open then 1
    else 0
  }

  predicate IsOpen(t: Thread) {
    t.status == Open
  }

  predicate IsClosed(t: Thread) {
    t.status == Closed
  }

  /** No pair of threads stands in an order the comparator rejects. */
  predicate SortedByStatus(ts: seq<Thread>) {
    forall i, j :: 0 <= i < j < |ts| ==> Compare(ts[i], ts[j]) <= 0
  }

  /** `r` lists the Open threads of `ts` in their order, and the Closed
      threads of `ts` in their order: what a stable sort keeps. */
  predicate StableFor(r: seq<Thread>, ts: seq<Thread>) {
    Keep(r, IsOpen) == Keep(ts, IsOpen) && Keep(r, IsClosed) == Keep(ts, IsClosed)
  }

  /** The stable Open-before-Closed sort. */
  function OpenFirst(ts: seq<Thread>): (r: seq<Thread>)
    ensures multiset(r) == multiset(ts)
    ensures forall t :: t in r <==> t in ts
    ensures SortedByStatus(r)
    ensures StableFor(r, ts)
  {
    PartitionPermutes(ts);
    PartitionSorted(ts);
    PartitionStable(ts);
    Keep(ts, IsOpen) + Keep(ts, IsClosed)
  }

  lemma PartitionPermutes(ts: seq<Thread>)
    ensures multiset(Keep(ts, IsOpen) + Keep(ts, IsClosed)) == multiset(ts)
    ensures forall t :: t in Keep(ts, IsOpen) + Keep(ts, IsClosed) <==> t in ts
  {
    KeepSplitMultiset(ts, IsOpen, IsClosed);
  }

  lemma PartitionSorted(ts: seq<Thread>)
    ensures SortedByStatus(Keep(ts, IsOpen) + Keep(ts, IsClosed))
  {
    var opens := Keep(ts, IsOpen);
    var r := opens + Keep(ts, IsClosed);
    forall i, j | 0 <= i < j < |r| ensures Compare(r[i], r[j]) <= 0 {
      if i < |opens| {
        assert r[i].status == Open;
      } else {
        assert r[j].status == Closed;
      }
    }
  }

  lemma PartitionStable(ts: seq<Thread>)
    ensures StableFor(Keep(ts, IsOpen) + Keep(ts, IsClosed), ts)
  {
    var opens := Keep(ts, IsOpen);
    var closeds := Keep(ts, IsClosed);
    KeepAppend(opens, closeds, IsOpen);
    KeepAppend(opens, closeds, IsClosed);
    KeepAll(opens, IsOpen);
    KeepNone(closeds, IsOpen);
    KeepNone(opens, IsClosed);
    KeepAll(closeds, IsClosed);
  }

  /** A list the comparator accepts is its Open threads followed by its
      Closed threads. */
  lemma {:induction false} SortedIsPartition(r: seq<Thread>)
    requires SortedByStatus(r)
    ensures r == Keep(r, IsOpen) + Keep(r, IsClosed)
  {
    if |r| > 0 {
      if r[0].status == Open {
        SortedTail(r);
        SortedIsPartition(r[1..]);
        KeepSplitCons(r, IsOpen, IsClosed);
      } else {
        SortedAfterClosed(r);
        KeepNone(r, IsOpen);
        KeepAll(r, IsClosed);
      }
    }
  }

  lemma SortedTail(r: seq<Thread>)
    requires |r| > 0 && SortedByStatus(r)
    ensures SortedByStatus(r[1..])
  {
    var tail := r[1..];
    forall i, j | 0 <= i < j < |tail| ensures Compare(tail[i], tail[j]) <= 0 {
      assert tail[i] == r[i + 1] && tail[j] == r[j + 1];
    }
  }

  /** In a sorted list, nothing Open follows a Closed thread. */
  lemma SortedAfterClosed(r: seq<Thread>)
    requires |r| > 0 && SortedByStatus(r) && r[0].status == Closed
    ensures forall i :: 0 <= i < |r| ==> IsClosed(r[i])
  {
    forall i | 0 < i < |r| ensures IsClosed(r[i]) {
      assert Compare(r[0], r[i]) <= 0;
    }
  }

  /** Any stable sort with this comparator produces exactly `OpenFirst`:
      the sorted, stable arrangement of a list is unique. */
  lemma StableSortIsOpenFirst(ts: seq<Thread>, r: seq<Thread>)
    requires SortedByStatus(r)
    requires StableFor(r, ts)
    ensures r == OpenFirst(ts)
  {
    SortedIsPartition(r);
  }

  /** Filtering before or after the sort gives the same list. */
  lemma KeepOpenFirst(ts: seq<Thread>, p: Thread -> bool)
    ensures Keep(OpenFirst(ts), p) == OpenFirst(Keep(ts, p))
  {
    KeepAppend(Keep(ts, IsOpen), Keep(ts, IsClosed), p);
    KeepKeep(ts, IsOpen, p, t => IsOpen(t) && p(t));
    KeepKeep(ts, p, IsOpen, t => IsOpen(t) && p(t));
    KeepKeep(ts, IsClosed, p, t => IsClosed(t) && p(t));
    KeepKeep(ts, p, IsClosed, t => IsClosed(t) && p(t));
  }

  /** A worked case: Closed, Open, Open, Closed sorts to the two Open
      threads, then the two Closed ones, each pair in its input order. */
  lemma OpenFirstExample(a: Thread, b: Thread, c: Thread, d: Thread)
    requires a.status == Closed && b.status == Open && c.status == Open && d.status == Closed
    ensures OpenFirst([a, b, c, d]) == [b, c, a, d]
  {
    OpenExample(a, b, c, d);
    ClosedExample(a, b, c, d);
  }

  lemma OpenExample(a: Thread, b: Thread, c: Thread, d: Thread)
    requires a.status == Closed && b.status == Open && c.status == Open && d.status == Closed
    ensures Keep([a, b, c, d], IsOpen) == [b, c]
  {
    assert [a, b, c, d][1..] == [b, c, d];
    assert [b, c, d][1..] == [c, d];
    assert [c, d][1..] == [d];
    assert Keep([d], IsOpen) == [];
    assert Keep([c, d], IsOpen) == [c];
  }

  lemma ClosedExample(a: Thread, b: Thread, c: Thread, d: Thread)
    requires a.status == Closed && b.status == Open && c.status == Open && d.status == Closed
    ensures Keep([a, b, c, d], IsClosed) == [a, d]
  {
    assert [a, b, c, d][1..] == [b, c, d];
    assert [b, c, d][1..] == [c, d];
    assert [c, d][1..] == [d];
    assert Keep([d], IsClosed) == [d];
    assert Keep([c, d], IsClosed) == [d];
  }
}

=== FILE: panel.dfy ===
/** The chat panel's own logic (src/components/ChatPanel.tsx): the guards on
    its two input forms, which threads start expanded, and the integer pixel
    arithmetic that sizes and places the floating window. The screen size is
    a parameter. */
module Panel {

  import opened Wrappers
  import opened Model
  import opened Text
  import Commands
  import Filters

  /** A call the panel makes into the app. */
  datatype Call =
    | AddThreadCall(ruleId: string, title: string)
    | AddCommentCall(threadId: string, text: string, author: Author)

  /** The new-thread form: its draft title and whether it is shown. */
  datatype ThreadForm = ThreadForm(draft: string, shown: bool)

  /** `handleAddThread`: with a non-blank title and a rule, adds a thread
      under the trimmed title and clears and hides the form; otherwise
      nothing happens. */
  function SubmitThread(form: ThreadForm, rule: Option<BusinessRule>)
    : (r: (Option<Call>, ThreadForm))
    ensures r.0.Some? <==> Trim(form.draft) != "" && rule.Some?
    ensures r.0.Some? ==>
      && r.0.value == AddThreadCall(rule.value.id, Trim(form.draft))
      && r.1 == ThreadForm("", false)
    ensures r.0.None? ==> r.1 == form
  {
    if Trim(form.draft) != "" && rule.Some? then
      (Some(AddThreadCall(rule.value.id, Trim(form.draft))), ThreadForm("", false))
    else (None, form)
  }

  /** `handleAddComment`: the per-thread drafts are a map; a thread without
      a draft, or with a blank one, adds nothing. Otherwise the trimmed draft
      is posted and only that thread's draft is cleared. */
  function SubmitComment(drafts: map<string, string>, threadId: string, author: Author)
    : (r: (Option<Call>, map<string, string>))
    ensures r.0.Some? <==> threadId in drafts && Trim(drafts[threadId]) != ""
    ensures r.0.Some? ==>
      && r.0.value == AddCommentCall(threadId, Trim(drafts[threadId]), author)
      && r.1 == drafts[threadId := ""]
    ensures r.0.None? ==> r.1 == drafts
  {
    if threadId in drafts && Trim(drafts[threadId]) != "" then
      (Some(AddCommentCall(threadId, Trim(drafts[threadId]), author)), drafts[threadId := ""])
    else (None, drafts)
  }

  /** Whatever the panel posts is neither empty nor padded: the text of the
      comment it adds to the thread list is trimmed and has a non-blank
      character, and other threads' drafts survive. */
  lemma PostedTextIsMeaningful(drafts: map<string, string>, threadId: string, author: Author,
                               ts: seq<Thread>, commentId: string, stamp: string, now: int)
    ensures var (call, drafts') := SubmitComment(drafts, threadId, author);
      && (forall k :: k in drafts && k != threadId ==> k in drafts' && drafts'[k] == drafts[k])
      && (call.Some? ==>
            var after := Commands.AddComment(ts, threadId, commentId, call.value.text, author, stamp, now);
            forall i :: 0 <= i < |ts| && ts[i].id == threadId ==>
              var c := after[i].comments[|ts[i].comments|];
              Trimmed(c.text) && c.text != "" && !AllWhite(c.text))
  {
    var (call, drafts') := SubmitComment(drafts, threadId, author);
    if call.Some? {
      var text := call.value.text;
      TrimIdempotent(drafts[threadId]);
      TrimEmptyIffWhite(text);
    }
  }

  /** The `useState` initializer of the panel's own expanded set: the first
      shown thread in thread context, nothing otherwise. The app renders one
      panel for its whole life, so the initializer runs once, at the first
      mount (see `FirstMountCollapsed`). */
  function InitialExpanded(ctx: Context, threads: seq<Thread>): (r: set<string>)
    ensures |r| <= 1
    ensures forall id :: id in r <==> ctx == ThreadContext && |threads| > 0 && id == threads[0].id
  {
    if ctx == ThreadContext && |threads| > 0 then {threads[0].id} else {}
  }

  /** Evaluated in thread context, the initializer expands nothing but the
      selected thread. */
  lemma InitialExpandsSelectedThread(all: seq<Thread>, f: FilterState, panel: ChatPanelState)
    requires panel.context == ThreadContext && IsSet(panel.threadId)
    ensures var shown := Filters.CurrentRuleThreads(all, f, panel);
      forall id :: id in InitialExpanded(panel.context, shown) ==> id == panel.threadId.value
  {
    var shown := Filters.CurrentRuleThreads(all, f, panel);
    if IsSet(panel.ruleId) && |shown| > 0 {
      assert shown[0] in shown;
    }
  }

  /** The panel state the app mounts the panel with: no rule, rule context. */
  const MountState: ChatPanelState := ChatPanelState(None, None, RuleContext)

  /** At the first mount, the only time the initializer runs, no thread is
      shown and so none starts expanded. */
  lemma FirstMountCollapsed(all: seq<Thread>, f: FilterState)
    ensures InitialExpanded(MountState.context, Filters.CurrentRuleThreads(all, f, MountState)) == {}
  {
  }

  /** The effect run when the context changes: switching to rule context
      with threads shown collapses them all. */
  function OnContextChange(ctx: Context, threads: seq<Thread>, expanded: set<string>)
    : (r: set<string>)
    ensures r <= expanded
    ensures ctx == ThreadContext || |threads| == 0 ==> r == expanded
    ensures ctx == RuleContext && |threads| > 0 ==> r == {}
  {
    if ctx == RuleContext && |threads| > 0 then {} else expanded
  }

  datatype Size = Size(width: int, height: int)
  datatype Pos = Pos(x: int, y: int)

  function Min(a: int, b: int): int { if a <= b then a else b }
  function Max(a: int, b: int): int { if a >= b then a else b }

  /** `Math.max(...comments.map(c => c.text.length), 0)`. */
  function MaxCommentLength(cs: seq<Comment>): (r: nat)
    ensures forall i :: 0 <= i < |cs| ==> |cs[i].text| <= r
    ensures r == 0 || exists i :: 0 <= i < |cs| && |cs[i].text| == r
  {
    if |cs| == 0 then 0
    else
      var rest := MaxCommentLength(cs[1..]);
      assert forall i :: 1 <= i < |cs| ==> cs[i] == cs[1..][i - 1];
      if |cs[0].text| >= rest then |cs[0].text| else rest
  }

  /** Pixels one comment adds in thread context and one thread in rule context. */
  const CommentHeight: int := 90
  const ThreadHeight: int := 150

  /** `calculateOptimalSize`. In thread context the window widens for long
      comments (8 px a character, between 400 and 600) and grows 90 px a
      comment between 400 and 800; in rule context it is 450 wide and grows
      150 px a thread between 400 and 700; otherwise it is 400 by 300. */
  function OptimalSize(ctx: Context, threads: seq<Thread>): (r: Size)
    ensures ctx == ThreadContext && |threads| > 0 ==>
      var cs := threads[0].comments;
      var need := 140 + |cs| * CommentHeight + 120 + 60;
      && 400 <= r.width <= 600
      && (MaxCommentLength(cs) <= 50 ==> r.width == 400)
      && (MaxCommentLength(cs) > 50 ==> r.width == Min(600, 8 * MaxCommentLength(cs)))
      && 400 <= r.height <= 800
      && Min(800, need) <= r.height <= Max(400, need)
    ensures ctx == RuleContext ==>
      var need := 200 + |threads| * ThreadHeight;
      && r.width == 450
      && 400 <= r.height <= 700
      && Min(700, need) <= r.height <= Max(400, need)
    ensures ctx == ThreadContext && |threads| == 0 ==> r == Size(400, 300)
  {
    if ctx == ThreadContext && |threads| > 0 then
      var cs := threads[0].comments;
      var longest := MaxCommentLength(cs);
      var width := if longest > 50 then Min(600, Max(400, longest * 8)) else 400;
      Size(width, Min(800, Max(400, 140 + |cs| * 90 + 120 + 60)))
    else if ctx == RuleContext then
      Size(450, Min(700, Max(400, 200 + |threads| * 150)))
    else Size(400, 300)
  }

  /** In rule context more threads never make the window shorter. */
  lemma OptimalSizeMonotone(a: seq<Thread>, b: seq<Thread>)
    requires |a| <= |b|
    ensures OptimalSize(RuleContext, a).height <= OptimalSize(RuleContext, b).height
  {
  }

  /** `calculateBoundedSize`: shrinks each dimension to the screen less 40 px. */
  function BoundedSize(s: Size, screen: Size): (r: Size)
    ensures r.width <= s.width && r.height <= s.height
    ensures r.width <= screen.width - 40 && r.height <= screen.height - 40
    ensures s.width <= screen.width - 40 ==> r.width == s.width
    ensures s.height <= screen.height - 40 ==> r.height == s.height
    ensures s.width > screen.width - 40 ==> r.width == screen.width - 40
    ensures s.height > screen.height - 40 ==> r.height == screen.height - 40
  {
    Size(Min(s.width, screen.width - 40), Min(s.height, screen.height - 40))
  }

  /** `Math.max(margin, Math.min(p, screen - size - margin))` with a 20 px margin. */
  function ClampCoord(p: int, screen: int, size: int): (r: int)
    ensures r >= 20
    ensures screen - size - 20 >= 20 ==> r <= screen - size - 20
    ensures 20 <= p <= screen - size - 20 ==> r == p
    ensures r == p || r == 20 || r == screen - size - 20
    ensures p < 20 || screen - size - 20 < 20 ==> r == 20
    ensures p > screen - size - 20 >= 20 ==> r == screen - size - 20
  {
    Max(20, Min(p, screen - size - 20))
  }

  /** Clamping a clamped coordinate changes nothing. */
  lemma ClampIdempotent(p: int, screen: int, size: int)
    ensures ClampCoord(ClampCoord(p, screen, size), screen, size) == ClampCoord(p, screen, size)
  {
  }

  /** `calculateOptimalPosition`, and the clamp applied when a drag stops
      (src/components/ChatPanel.tsx:385-392): both clamp each coordinate. */
  function ClampPos(p: Pos, size: Size, screen: Size): (r: Pos)
    ensures r.x >= 20 && r.y >= 20
    ensures screen.width - size.width - 20 >= 20 ==> r.x + size.width <= screen.width - 20
    ensures screen.height - size.height - 20 >= 20 ==> r.y + size.height <= screen.height - 20
  {
    Pos(ClampCoord(p.x, screen.width, size.width), ClampCoord(p.y, screen.height, size.height))
  }

  /** The auto-sizing effect, also run after a resize: bound the size, then
      place the window for that size. */
  function Fit(wanted: Size, p: Pos, screen: Size): (r: (Size, Pos))
    ensures r.0 == BoundedSize(wanted, screen)
    ensures r.1 == ClampPos(p, r.0, screen)
  {
    var s := BoundedSize(wanted, screen);
    (s, ClampPos(p, s, screen))
  }

  /** After fitting, the window keeps a margin of at least 20 px on every side. */
  lemma FittedWindowInside(ctx: Context, threads: seq<Thread>, p: Pos, screen: Size)
    ensures var (s, q) := Fit(OptimalSize(ctx, threads), p, screen);
      && 20 <= q.x && q.x + s.width <= screen.width - 20
      && 20 <= q.y && q.y + s.height <= screen.height - 20
  {
  }
}

=== FILE: scalar_filter.dfy ===
/** The filter slots as JavaScript actually holds them. The app starts every
    multi-valued slot as an array (src/App.tsx:14-20), but the filter bar
    writes the chosen option back as a bare string (src/components/Header.tsx:32-46).
    `filteredRules` then calls `.includes` on that string, which tests for a
    substring rather than for membership: a description that happens to
    contain "All" admits every rule. `Header.HandleFilterChange` with
    `Filters.FilteredRules` is the corrected behaviour the rest of the model
    uses; this module keeps the code as written next to it. */
module ScalarFilter {

  import opened Wrappers
  import opened Model
  import opened Seqs
  import opened Text
  import Filters
  import Header

  /** A value in a filter slot: an array of strings or a single string. */
  datatype JsSel = Arr(items: seq<string>) | Str(s: string)

  /** `sel.includes(x)`: membership on an array, substring test on a string. */
  predicate Includes(sel: JsSel, x: string) {
    match sel
    case Arr(xs) => x in xs
    case Str(s) => Contains(s, x)
  }

  /** The list a slot would hold had the bar written a one-element array. */
  function Lift(sel: JsSel): seq<string> {
    match sel
    case Arr(xs) => xs
    case Str(s) => [s]
  }

  datatype JsFilters = JsFilters(
    moduleName: string,
    status: JsSel,
    threadStatus: JsSel,
    businessRule: JsSel,
    threadTitle: JsSel)

  function LiftFilters(f: JsFilters): (g: FilterState)
    ensures g.moduleName == f.moduleName
  {
    FilterState(f.moduleName, Lift(f.status), Lift(f.threadStatus),
                Lift(f.businessRule), Lift(f.threadTitle))
  }

  /** The app's starting filters. */
  const Initial: JsFilters :=
    JsFilters("Warehouse Safety Checks", Arr([All]), Arr([All]), Arr([All]), Arr([All]))

  /** `handleFilterChange` as written: the chosen value is stored as a string,
      and choosing a business rule stores the string "All" as thread title. */
  function HandleFilterChangeAsWritten(f: JsFilters, key: Header.FilterKey, v: string)
    : (r: JsFilters)
    ensures LiftFilters(r) == Header.HandleFilterChange(LiftFilters(f), key, v)
  {
    match key
    case ModuleKey => f.(moduleName := v)
    case StatusKey => f.(status := Str(v))
    case ThreadStatusKey => f.(threadStatus := Str(v))
    case BusinessRuleKey => f.(businessRule := Str(v), threadTitle := Str(All))
    case ThreadTitleKey => f.(threadTitle := Str(v))
  }

  /** The rule predicate of `filteredRules` evaluated on those values. */
  predicate RuleVisibleAsWritten(f: JsFilters, threads: seq<Thread>, r: BusinessRule) {
    var moduleMatch := f.moduleName == All || r.moduleName == f.moduleName;
    var statusMatch := Includes(f.status, All) || Includes(f.status, RuleStatusLabel(r.status));
    var businessRuleMatch := Includes(f.businessRule, All) || Includes(f.businessRule, r.description);
    var threadTitleMatch :=
      if !Includes(f.threadTitle, All) then
        Any(Keep(threads, (t: Thread) => t.ruleId == r.id), (t: Thread) => Includes(f.threadTitle, t.title))
      else true;
    moduleMatch && statusMatch && businessRuleMatch && threadTitleMatch
  }

  function FilteredRulesAsWritten(rules: seq<BusinessRule>, threads: seq<Thread>, f: JsFilters)
    : (r: seq<BusinessRule>)
    ensures Subseq(r, rules)
    ensures forall rule :: rule in r <==> rule in rules && RuleVisibleAsWritten(f, threads, rule)
  {
    Keep(rules, (rule: BusinessRule) => RuleVisibleAsWritten(f, threads, rule))
  }

  /** A string includes itself, so the substring test admits everything the
      membership test admits. */
  lemma IncludesLifted(sel: JsSel, x: string)
    ensures x in Lift(sel) ==> Includes(sel, x)
  {
    if sel.Str? && x in Lift(sel) {
      assert x == sel.s;
      assert x <= sel.s;
    }
  }

  /** The code as written never hides a rule the corrected filter shows; it
      can only show more. */
  lemma AsWrittenShowsAtLeastCorrected(rules: seq<BusinessRule>, threads: seq<Thread>,
                                       f: JsFilters)
    ensures forall rule :: rule in Filters.FilteredRules(rules, threads, LiftFilters(f)) ==>
      rule in FilteredRulesAsWritten(rules, threads, f)
  {
    forall rule | rule in Filters.FilteredRules(rules, threads, LiftFilters(f))
      ensures RuleVisibleAsWritten(f, threads, rule)
    {
      IncludesLifted(f.status, All);
      IncludesLifted(f.status, RuleStatusLabel(rule.status));
      IncludesLifted(f.businessRule, All);
      IncludesLifted(f.businessRule, rule.description);
      IncludesLifted(f.threadTitle, All);
      var g := LiftFilters(f);
      if !Includes(f.threadTitle, All) {
        var t :| t in threads && t.ruleId == rule.id && t.title in g.threadTitle;
        IncludesLifted(f.threadTitle, t.title);
        var own := Keep(threads, (t: Thread) => t.ruleId == rule.id);
        assert t in own;
      }
    }
  }

  /** Rule 1 and rule 2 of the seed data. */
  const Helmets: BusinessRule := BusinessRule("rule-1", 1,
    All + " warehouse personnel must wear safety helmets at all times",
    Fail, "Warehouse Safety Checks", 0)
  const Exits: BusinessRule := BusinessRule("rule-2", 2,
    "Emergency exits must remain unobstructed at all times",
    Pass, "Warehouse Safety Checks", 0)

  /** Choosing rule 1's description in the bar: as written, the stored
      string contains "All", so rule 2 stays listed as well; corrected, only
      rule 1 is listed. */
  lemma HelmetSelectionAdmitsEveryRule()
    ensures var f := HandleFilterChangeAsWritten(Initial, Header.BusinessRuleKey, Helmets.description);
      FilteredRulesAsWritten([Helmets, Exits], [], f) == [Helmets, Exits]
    ensures var g := Header.HandleFilterChange(LiftFilters(Initial), Header.BusinessRuleKey,
                                               Helmets.description);
      Filters.FilteredRules([Helmets, Exits], [], g) == [Helmets]
  {
    var f := HandleFilterChangeAsWritten(Initial, Header.BusinessRuleKey, Helmets.description);
    assert All <= Helmets.description;
    assert RuleVisibleAsWritten(f, [], Helmets);
    assert RuleVisibleAsWritten(f, [], Exits);
    var g := Header.HandleFilterChange(LiftFilters(Initial), Header.BusinessRuleKey,
                                       Helmets.description);
    assert Exits.description != Helmets.description by {
      assert |Exits.description| != |Helmets.description|;
    }
    assert Filters.RuleVisible(g, [], Helmets);
    assert !Filters.RuleVisible(g, [], Exits);
  }

  /** Corrected: with one description chosen, every listed rule carries that
      description. */
  lemma ChosenDescriptionNarrows(f: FilterState, rules: seq<BusinessRule>, threads: seq<Thread>,
                                 d: string)
    requires d != All
    ensures var g := Header.HandleFilterChange(f, Header.BusinessRuleKey, d);
      forall rule :: rule in Filters.FilteredRules(rules, threads, g) ==> rule.description == d
  {
  }

  /** `getCascadingThreadTitleOptions` as written: the array the app starts
      with is never `=== 'All'` and never equals a description, so the
      options stay as given; a stored string is compared directly. */
  function CascadeAsWritten(sel: JsSel, rules: seq<BusinessRule>, threads: seq<Thread>,
                            options: seq<string>): (r: seq<string>)
    ensures sel.Arr? ==> r == options
    ensures sel.Str? ==> r == Header.CascadingTitleOptions([sel.s], rules, threads, options)
  {
    match sel
    case Arr(_) => options
    case Str(s) =>
      if s == All then options
      else
        match Header.FindRule(rules, [s])
        case None => options
        case Some(rule) => [All] + Header.RuleTitles(threads, rule.id)
  }

  /** The strict comparisons in the cascade do no harm: wherever the app can
      reach, it agrees with the corrected cascade on the listed filter. */
  lemma CascadeAgrees(f: JsFilters, key: Header.FilterKey, v: string, rules: seq<BusinessRule>,
                      threads: seq<Thread>, options: seq<string>)
    ensures CascadeAsWritten(Initial.businessRule, rules, threads, options)
         == Header.CascadingTitleOptions(Lift(Initial.businessRule), rules, threads, options)
    ensures var g := HandleFilterChangeAsWritten(f, key, v);
      g.businessRule.Str? ==>
        CascadeAsWritten(g.businessRule, rules, threads, options)
        == Header.CascadingTitleOptions(Lift(g.businessRule), rules, threads, options)
  {
  }
}

=== FILE: seqs.dfy ===
/** Sequence helpers shared by the whole model: `Array.prototype.filter`,
    order-preserving subsequences, duplicate-free sequences and the
    first-occurrence deduplication that `Array.from(new Set(xs))` performs. */
module Seqs {

  /** `s.filter(p)`: the elements of `s` satisfying `p`, in their original order. */
  function Keep<T(==,!new)>(s: seq<T>, p: T -> bool): (r: seq<T>)
    ensures |r| <= |s|
    ensures forall x :: x in r <==> x in s && p(x)
    ensures forall i :: 0 <= i < |r| ==> p(r[i])
    ensures Subseq(r, s)
  {
    if |s| == 0 then []
    else if p(s[0]) then [s[0]] + Keep(s[1..], p)
    else Keep(s[1..], p)
  }

  /** `s.some(p)`: some element satisfies `p`. */
  predicate Any<T>(s: seq<T>, p: T -> bool)
    ensures Any(s, p) <==> exists i :: 0 <= i < |s| && p(s[i])
  {
    |s| > 0 && (p(s[0]) || Any(s[1..], p))
  }

  /** `a` can be obtained from `b` by deleting elements, keeping the order. */
  predicate Subseq<T(==,!new)>(a: seq<T>, b: seq<T>)
    decreases |b|
  {
    if |a| == 0 then true
    else if |b| == 0 then false
    else if a[0] == b[0] then Subseq(a[1..], b[1..])
    else Subseq(a, b[1..])
  }

  /** No element occurs twice. */
  predicate Distinct<T(==,!new)>(s: seq<T>) {
    forall i, j :: 0 <= i < j < |s| ==> s[i] != s[j]
  }

  /** Appending a new element keeps a sequence duplicate-free. */
  lemma DistinctSnoc<T(!new)>(s: seq<T>, x: T)
    requires Distinct(s) && x !in s
    ensures Distinct(s + [x])
  {
    var t := s + [x];
    forall i, j | 0 <= i < j < |t| ensures t[i] != t[j] {
      assert t[i] == s[i];
    }
  }

  /** `Array.from(new Set(s))`: the first occurrence of every element, in order. */
  function Dedup<T(==,!new)>(s: seq<T>): (r: seq<T>)
    ensures Distinct(r)
    ensures forall x :: x in r <==> x in s
    ensures |r| <= |s|
  {
    if |s| == 0 then []
    else
      var d := Dedup(s[..|s| - 1]);
      assert forall x :: x in s <==> x in s[..|s| - 1] || x == s[|s| - 1];
      if s[|s| - 1] in d then d else d + [s[|s| - 1]]
  }

  /** Appending an element extends the deduplication only if it is new. */
  lemma DedupSnoc<T(!new)>(s: seq<T>, x: T)
    ensures Dedup(s + [x]) == if x in Dedup(s) then Dedup(s) else Dedup(s) + [x]
  {
    assert (s + [x])[..|s|] == s;
  }

  /** One unfolding of `Keep`. */
  lemma KeepCons<T(!new)>(s: seq<T>, p: T -> bool)
    requires |s| > 0
    ensures Keep(s, p) == (if p(s[0]) then [s[0]] else []) + Keep(s[1..], p)
  {
  }

  /** Filtering a prefix gives a prefix of the filtered whole. */
  lemma KeepPrefix<T(!new)>(s: seq<T>, k: nat, p: T -> bool)
    requires k <= |s|
    ensures Keep(s[..k], p) <= Keep(s, p)
  {
    var a, b := s[..k], s[k..];
    assert a + b == s;
    KeepAppend(a, b, p);
    PrefixOfAppend(Keep(a, p), Keep(b, p));
  }

  lemma PrefixOfAppend<T>(a: seq<T>, b: seq<T>)
    ensures a <= a + b
  {
    assert (a + b)[..|a|] == a;
  }

  /** A head kept by `p` and dropped by `q` extends a split of the tail. */
  lemma KeepSplitCons<T(!new)>(s: seq<T>, p: T -> bool, q: T -> bool)
    requires |s| > 0 && p(s[0]) && !q(s[0])
    requires s[1..] == Keep(s[1..], p) + Keep(s[1..], q)
    ensures s == Keep(s, p) + Keep(s, q)
  {
    KeepCons(s, p);
    KeepCons(s, q);
    ConsSplit(s, Keep(s[1..], p), Keep(s[1..], q));
  }

  lemma ConsSplit<T>(s: seq<T>, a: seq<T>, b: seq<T>)
    requires |s| > 0 && s[1..] == a + b
    ensures s == ([s[0]] + a) + b
  {
    assert s == [s[0]] + s[1..];
  }

  /** First-occurrence order: the distinct elements of a prefix come first,
      in the same order, in the distinct elements of the whole. */
  lemma {:induction false} DedupPrefix<T(!new)>(s: seq<T>, k: nat)
    requires k <= |s|
    ensures Dedup(s[..k]) <= Dedup(s)
    decreases |s|
  {
    if k < |s| {
      var init := s[..|s| - 1];
      assert init[..k] == s[..k];
      DedupPrefix(init, k);
      DedupSnoc(init, s[|s| - 1]);
      assert init + [s[|s| - 1]] == s;
    } else {
      assert s[..k] == s;
    }
  }

  lemma {:induction false} KeepAppend<T(!new)>(a: seq<T>, b: seq<T>, p: T -> bool)
    ensures Keep(a + b, p) == Keep(a, p) + Keep(b, p)
  {
    if |a| == 0 {
      assert a + b == b;
    } else {
      assert (a + b)[1..] == a[1..] + b;
      KeepAppend(a[1..], b, p);
    }
  }

  /** Filtering twice is filtering once by the conjunction. */
  lemma {:induction false} KeepKeep<T(!new)>(s: seq<T>, p: T -> bool, q: T -> bool, pq: T -> bool)
    requires forall x :: pq(x) == (p(x) && q(x))
    ensures Keep(Keep(s, p), q) == Keep(s, pq)
  {
    if |s| != 0 {
      KeepKeep(s[1..], p, q, pq);
    }
  }

  /** Filters by pointwise-equal predicates agree. */
  lemma {:induction false} KeepSame<T(!new)>(s: seq<T>, p: T -> bool, q: T -> bool)
    requires forall x :: x in s ==> p(x) == q(x)
    ensures Keep(s, p) == Keep(s, q)
  {
    if |s| != 0 {
      assert forall x :: x in s[1..] ==> x in s;
      KeepSame(s[1..], p, q);
    }
  }

  /** A filter that every element passes changes nothing. */
  lemma {:induction false} KeepAll<T(!new)>(s: seq<T>, p: T -> bool)
    requires forall i :: 0 <= i < |s| ==> p(s[i])
    ensures Keep(s, p) == s
  {
    if |s| != 0 {
      KeepAll(s[1..], p);
    }
  }

  /** A filter that no element passes yields the empty sequence. */
  lemma {:induction false} KeepNone<T(!new)>(s: seq<T>, p: T -> bool)
    requires forall i :: 0 <= i < |s| ==> !p(s[i])
    ensures Keep(s, p) == []
  {
    if |s| != 0 {
      KeepNone(s[1..], p);
    }
  }

  /** Each value a filter keeps appears as often as in the input. */
  lemma KeepCounts<T(!new)>(s: seq<T>, p: T -> bool)
    ensures forall x :: x in Keep(s, p) ==> multiset(Keep(s, p))[x] == multiset(s)[x]
  {
    forall x | x in Keep(s, p) ensures multiset(Keep(s, p))[x] == multiset(s)[x] {
      KeepCount(s, p, x);
    }
  }

  /** The middle part of a three-way concatenation, recovered by slicing. */
  lemma SliceMiddle<T>(a: seq<T>, b: seq<T>, c: seq<T>)
    ensures |a| + |b| <= |a + b + c|
    ensures (a + b + c)[|a|..|a| + |b|] == b
  {
  }

  lemma AppendAssoc<T>(a: seq<T>, b: seq<T>, c: seq<T>)
    ensures (a + b) + c == a + (b + c)
  {
  }

  /** A non-empty sequence, alone and followed by another, is its head and tail. */
  lemma ConsAppend<T>(a: seq<T>, b: seq<T>)
    requires |a| > 0
    ensures a == [a[0]] + a[1..]
    ensures a + b == [a[0]] + (a[1..] + b)
  {
    assert a == [a[0]] + a[1..];
  }

  /** A sequence is what precedes position `k`, the element there, and what follows. */
  lemma SplitAt<T>(s: seq<T>, k: nat)
    requires k < |s|
    ensures s == s[..k] + ([s[k]] + s[k + 1..])
  {
    assert s[k..] == [s[k]] + s[k + 1..];
    assert s == s[..k] + s[k..];
  }

  lemma ConsMultiset<T>(s: seq<T>)
    requires |s| > 0
    ensures multiset(s) == multiset([s[0]]) + multiset(s[1..])
  {
    assert s == [s[0]] + s[1..];
  }

  /** Filtering keeps every occurrence of a kept value and none of a
      dropped one. */
  lemma {:induction false} KeepCount<T(!new)>(s: seq<T>, p: T -> bool, x: T)
    ensures multiset(Keep(s, p))[x] == if p(x) then multiset(s)[x] else 0
  {
    if |s| > 0 {
      var head: seq<T> := if p(s[0]) then [s[0]] else [];
      KeepCount(s[1..], p, x);
      KeepCons(s, p);
      assert multiset(Keep(s, p)) == multiset(head) + multiset(Keep(s[1..], p));
      ConsMultiset(s);
    }
  }

  /** Filtering splits a sequence's multiset between a predicate and its negation. */
  lemma {:induction false} KeepSplitMultiset<T(!new)>(s: seq<T>, p: T -> bool, q: T -> bool)
    requires forall x :: q(x) == !p(x)
    ensures multiset(Keep(s, p)) + multiset(Keep(s, q)) == multiset(s)
  {
    if |s| != 0 {
      KeepSplitMultiset(s[1..], p, q);
      assert s == [s[0]] + s[1..];
    }
  }
}

=== FILE: sla.dfy ===
/** Service-level bookkeeping shown next to every thread: the urgency
    classification (`getThreadUrgencyInfo`, written out identically in
    DataTable.tsx and ChatPanel.tsx) and the due-date summary (`getSLAInfo`).
    Instants are milliseconds; `now` is a parameter. */
module Sla {

  import opened Model
  import Commands

  datatype Urgency = Low | Medium | High | Critical

  datatype UrgencyInfo = UrgencyInfo(
    level: Urgency,
    overdueDays: int,
    daysSinceUpdate: int,
    isOverdue: bool)

  datatype SlaInfo = SlaInfo(
    daysUntilDue: int,
    daysSinceCreated: int,
    isOverdue: bool,
    overdueDays: int)

  function Rank(u: Urgency): nat {
    match u
    case Low => 0
    case Medium => 1
    case High => 2
    case Critical => 3
  }

  /** `Math.floor(a / d)` for a positive divisor. */
  function FloorDiv(a: int, d: int): (q: int)
    requires d > 0
    ensures q * d <= a < q * d + d
  {
    a / d
  }

  /** `Math.ceil(a / d)` for a positive divisor. */
  function CeilDiv(a: int, d: int): (q: int)
    requires d > 0
    ensures q * d - d < a <= q * d
  {
    -((-a) / d)
  }

  /** Whole days elapsed since the last update, rounded down. */
  function DaysSinceUpdate(now: int, updatedAt: int): int {
    FloorDiv(now - updatedAt, Commands.DayMs)
  }

  /** The service window of each priority, in days. */
  function WindowDays(p: Priority): int {
    match p
    case P1 => 1
    case P2 => 3
    case P3 => 7
  }

  /** The level a thread reaches once past its window, and the level it has
      within it (before any escalation). */
  function LateLevel(p: Priority): Urgency {
    match p
    case P1 => Critical
    case P2 => High
    case P3 => Medium
  }

  function TimelyLevel(p: Priority): Urgency {
    match p
    case P1 => High
    case P2 => Medium
    case P3 => Low
  }

  /** `getThreadUrgencyInfo` for a thread last updated `days` whole days ago. */
  function UrgencyOf(p: Priority, a: ActionStatus, days: int): (r: UrgencyInfo)
    ensures r.daysSinceUpdate == days
    ensures r.overdueDays >= 0
    ensures r.overdueDays == if days > WindowDays(p) then days - WindowDays(p) else 0
    ensures r.isOverdue <==> days > WindowDays(p)
    ensures a != ActionRequired ==>
      r.level == if r.isOverdue then LateLevel(p) else TimelyLevel(p)
    ensures a == ActionRequired ==>
      r.level == if r.isOverdue then Critical else TimelyLevel(p)
  {
    var (level, overdue) :=
      if p == P1 then
        (if days > 1 then Critical else High, Max(0, days - 1))
      else if p == P2 then
        (if days > 3 then High else Medium, Max(0, days - 3))
      else
        (if days > 7 then Medium else Low, Max(0, days - 7));
    var escalated := if a == ActionRequired && overdue > 0 then Critical else level;
    UrgencyInfo(escalated, overdue, days, overdue > 0)
  }

  function Max(a: int, b: int): int {
    if a >= b then a else b
  }

  /** Urgency never drops as a thread goes longer without an update. */
  lemma UrgencyMonotoneInDays(p: Priority, a: ActionStatus, d1: int, d2: int)
    requires d1 <= d2
    ensures Rank(UrgencyOf(p, a, d1).level) <= Rank(UrgencyOf(p, a, d2).level)
    ensures UrgencyOf(p, a, d1).overdueDays <= UrgencyOf(p, a, d2).overdueDays
  {
  }

  /** At the same age a more severe priority is never less urgent. */
  lemma UrgencyMonotoneInPriority(a: ActionStatus, days: int)
    ensures Rank(UrgencyOf(P2, a, days).level) <= Rank(UrgencyOf(P1, a, days).level)
    ensures Rank(UrgencyOf(P3, a, days).level) <= Rank(UrgencyOf(P2, a, days).level)
  {
  }

  /** `getSLAInfo`: the thread is overdue exactly when now is past the due
      instant, and then by a whole number of days rounded up (at least one). */
  function SlaOf(now: int, dueDate: int, createdAt: int): (r: SlaInfo)
    ensures r.isOverdue <==> now > dueDate
    ensures !r.isOverdue ==> r.overdueDays == 0
    ensures r.isOverdue ==>
      && r.overdueDays >= 1
      && (r.overdueDays - 1) * Commands.DayMs < now - dueDate <= r.overdueDays * Commands.DayMs
    ensures (r.daysUntilDue - 1) * Commands.DayMs < dueDate - now <= r.daysUntilDue * Commands.DayMs
    ensures r.daysSinceCreated * Commands.DayMs <= now - createdAt
            < (r.daysSinceCreated + 1) * Commands.DayMs
  {
    var isOverdue := now > dueDate;
    SlaInfo(
      CeilDiv(dueDate - now, Commands.DayMs),
      FloorDiv(now - createdAt, Commands.DayMs),
      isOverdue,
      if isOverdue then CeilDiv(now - dueDate, Commands.DayMs) else 0)
  }

  /** Once overdue, the days overdue and the (negative) days until due add up
      to zero, or to one when the lateness is not a whole number of days. */
  lemma OverdueMirrorsDaysUntilDue(now: int, dueDate: int, createdAt: int)
    requires now > dueDate
    ensures var r := SlaOf(now, dueDate, createdAt);
      0 <= r.overdueDays + r.daysUntilDue <= 1
  {
    var r := SlaOf(now, dueDate, createdAt);
    var d := Commands.DayMs;
    assert (r.overdueDays + r.daysUntilDue) * d - 2 * d < 0 < (r.overdueDays + r.daysUntilDue) * d + d;
  }

  /** A freshly added thread is due in three days: it is not overdue and of
      medium urgency for its first three days, and overdue from then on. */
  lemma NewThreadDeadline(ts: seq<Thread>, id: string, ruleId: string, title: string,
                          created: int, now: int)
    ensures var t := Commands.AddThread(ts, id, ruleId, title, created)[|ts|];
      && (SlaOf(now, t.dueDate, t.createdAt).isOverdue <==> now > created + 3 * Commands.DayMs)
      && (now <= created + 3 * Commands.DayMs ==>
            UrgencyOf(t.priority, t.actionStatus, DaysSinceUpdate(now, t.updatedAt)).level == Medium)
  {
    var t := Commands.AddThread(ts, id, ruleId, title, created)[|ts|];
    if now <= created + 3 * Commands.DayMs {
      var days := DaysSinceUpdate(now, t.updatedAt);
      assert days * Commands.DayMs <= now - created;
      assert days <= 3;
    }
  }
}

=== FILE: table.dfy ===
/** The derivations the rule table makes (DataTable.tsx): grouping the
    visible rules by module, the latest QC and SM comment of a thread, and
    the expand/collapse-all button of a rule's thread list. */
module Table {

  import opened Wrappers
  import opened Model
  import opened Seqs
  import Text
  import Commands

  predicate InModule(k: string, r: BusinessRule) {
    r.moduleName == k
  }

  function ModuleNames(rules: seq<BusinessRule>): (r: seq<string>)
    ensures |r| == |rules|
    ensures forall i :: 0 <= i < |rules| ==> r[i] == rules[i].moduleName
  {
    seq(|rules|, i requires 0 <= i < |rules| => rules[i].moduleName)
  }

  /** The rules of module `k`, in input order. */
  function OfModule(rules: seq<BusinessRule>, k: string): seq<BusinessRule> {
    Keep(rules, r => InModule(k, r))
  }

  /** Each rule lies in the group of its own module and in no other. */
  lemma OfModuleMembership(rules: seq<BusinessRule>, k: string, rule: BusinessRule)
    ensures rule in OfModule(rules, k) <==> rule in rules && rule.moduleName == k
  {
  }

  lemma ModuleNamesSnoc(prefix: seq<BusinessRule>, rule: BusinessRule)
    ensures ModuleNames(prefix + [rule]) == ModuleNames(prefix) + [rule.moduleName]
  {
  }

  lemma OfModuleSnoc(prefix: seq<BusinessRule>, rule: BusinessRule, k: string)
    ensures OfModule(prefix + [rule], k)
         == OfModule(prefix, k) + (if rule.moduleName == k then [rule] else [])
  {
    KeepAppend(prefix, [rule], r => InModule(k, r));
  }

  lemma OfModuleAbsent(prefix: seq<BusinessRule>, k: string)
    requires k !in ModuleNames(prefix)
    ensures OfModule(prefix, k) == []
  {
    forall j | 0 <= j < |prefix| ensures !InModule(k, prefix[j]) {
      assert ModuleNames(prefix)[j] in ModuleNames(prefix);
    }
    KeepNone(prefix, r => InModule(k, r));
  }

  /** `groupedRules`: a plain object filled in one pass, so its keys are the
      module names in first-occurrence order and each key's list holds that
      module's rules in input order. */
  method GroupRules(rules: seq<BusinessRule>)
    returns (keys: seq<string>, groups: map<string, seq<BusinessRule>>)
    ensures keys == Dedup(ModuleNames(rules))
    ensures forall k :: k in groups <==> k in keys
    ensures forall k :: k in groups ==> groups[k] == OfModule(rules, k)
  {
    keys := [];
    groups := map[];
    var i := 0;
    while i < |rules|
      invariant 0 <= i <= |rules|
      invariant keys == Dedup(ModuleNames(rules[..i]))
      invariant forall k :: k in groups <==> k in keys
      invariant forall k :: k in groups ==> groups[k] == OfModule(rules[..i], k)
    {
      keys, groups := GroupNext(rules, i, keys, groups);
      i := i + 1;
    }
    assert rules[..i] == rules;
  }

  /** The grouping pass over `rules[..i]` extended by `rules[i]`. */
  method GroupNext(rules: seq<BusinessRule>, i: nat, keys: seq<string>,
                   groups: map<string, seq<BusinessRule>>)
    returns (keys': seq<string>, groups': map<string, seq<BusinessRule>>)
    requires i < |rules|
    requires keys == Dedup(ModuleNames(rules[..i]))
    requires forall k :: k in groups <==> k in keys
    requires forall k :: k in groups ==> groups[k] == OfModule(rules[..i], k)
    ensures keys' == Dedup(ModuleNames(rules[..i + 1]))
    ensures forall k :: k in groups' <==> k in keys'
    ensures forall k :: k in groups' ==> groups'[k] == OfModule(rules[..i + 1], k)
  {
    assert rules[..i + 1] == rules[..i] + [rules[i]];
    keys', groups' := GroupStep(rules[..i], rules[i], keys, groups);
  }

  /** One rule of the grouping pass: a new module opens a group at the end
      of the key order, a known one gets the rule appended. */
  method GroupStep(prefix: seq<BusinessRule>, rule: BusinessRule, keys: seq<string>,
                   groups: map<string, seq<BusinessRule>>)
    returns (keys': seq<string>, groups': map<string, seq<BusinessRule>>)
    requires keys == Dedup(ModuleNames(prefix))
    requires forall k :: k in groups <==> k in keys
    requires forall k :: k in groups ==> groups[k] == OfModule(prefix, k)
    ensures keys' == Dedup(ModuleNames(prefix + [rule]))
    ensures forall k :: k in groups' <==> k in keys'
    ensures forall k :: k in groups' ==> groups'[k] == OfModule(prefix + [rule], k)
  {
    var m := rule.moduleName;
    ModuleNamesSnoc(prefix, rule);
    DedupSnoc(ModuleNames(prefix), m);
    if m !in groups {
      OfModuleAbsent(prefix, m);
      keys' := keys + [m];
      groups' := groups[m := [rule]];
    } else {
      keys' := keys;
      groups' := groups[m := groups[m] + [rule]];
    }
    forall k | k in groups' ensures groups'[k] == OfModule(prefix + [rule], k) {
      OfModuleSnoc(prefix, rule, k);
    }
  }

  /** `threads.find(t => t.id === id)`: the first thread with that id. */
  function FindThread(ts: seq<Thread>, id: string): (r: Option<Thread>)
    ensures r.None? <==> forall i :: 0 <= i < |ts| ==> ts[i].id != id
    ensures r.Some? ==> exists k :: 0 <= k < |ts| && ts[k] == r.value && ts[k].id == id
                                    && forall j :: 0 <= j < k ==> ts[j].id != id
  {
    if |ts| == 0 then None
    else if ts[0].id == id then Some(ts[0])
    else
      var r := FindThread(ts[1..], id);
      assert r.Some? ==> exists k :: 1 <= k < |ts| && ts[k] == r.value && ts[k].id == id
                                      && forall j :: 1 <= j < k ==> ts[j].id != id by {
        if r.Some? {
          var k :| 0 <= k < |ts| - 1 && ts[1..][k] == r.value && ts[1..][k].id == id
                   && forall j :: 0 <= j < k ==> ts[1..][j].id != id;
          assert forall j :: 1 <= j < k + 1 ==> ts[j] == ts[1..][j - 1];
        }
      }
      r
  }

  /** Comment `k` is the latest one by `author`: its timestamp is non-empty,
      no comment by `author` has a later one, and every earlier comment by
      `author` has an earlier one (the first of equal maxima wins). */
  predicate IsLatestAt(cs: seq<Comment>, author: Author, k: int) {
    && 0 <= k < |cs|
    && cs[k].author == author
    && cs[k].timestamp != ""
    && (forall j :: 0 <= j < |cs| && cs[j].author == author ==>
          !Text.Less(cs[k].timestamp, cs[j].timestamp))
    && (forall j :: 0 <= j < k && cs[j].author == author ==>
          Text.Less(cs[j].timestamp, cs[k].timestamp))
  }

  /** If `a <= b < c` then `a < c` and not `c < a`. */
  lemma LessAfterAtMost(a: string, b: string, c: string)
    requires !Text.Less(b, a) && Text.Less(b, c)
    ensures Text.Less(a, c) && !Text.Less(c, a)
  {
    if a == b {
      Text.LessIrreflexive(c);
      if Text.Less(c, a) {
        Text.LessTransitive(b, c, a);
        Text.LessIrreflexive(a);
      }
    } else {
      Text.LessTotal(a, b);
      Text.LessTransitive(a, b, c);
      if Text.Less(c, a) {
        Text.LessTransitive(a, c, a);
        Text.LessIrreflexive(a);
      }
    }
  }

  /** The scan of `getLatestQCCommentForThread` / `getLatestSMCommentForThread`
      over one thread's comments: keep the comment whose timestamp is
      strictly greater than the best so far, starting from "". */
  method LatestBy(cs: seq<Comment>, author: Author) returns (latest: Option<Comment>)
    ensures latest.None? <==>
      forall j :: 0 <= j < |cs| && cs[j].author == author ==> cs[j].timestamp == ""
    ensures latest.Some? ==> exists k :: IsLatestAt(cs, author, k) && cs[k] == latest.value
  {
    latest := None;
    var latestStamp := "";
    ghost var k := 0;
    for i := 0 to |cs|
      invariant latest.None? ==> latestStamp == ""
      invariant latest.None? ==>
        forall j :: 0 <= j < i && cs[j].author == author ==> cs[j].timestamp == ""
      invariant latest.Some? ==>
        && 0 <= k < i && cs[k] == latest.value && cs[k].author == author
        && latestStamp == cs[k].timestamp && latestStamp != ""
        && (forall j :: 0 <= j < i && cs[j].author == author ==>
              !Text.Less(latestStamp, cs[j].timestamp))
        && (forall j :: 0 <= j < k && cs[j].author == author ==>
              Text.Less(cs[j].timestamp, latestStamp))
    {
      var c := cs[i];
      if c.author == author && Text.Less(latestStamp, c.timestamp) {
        forall j | 0 <= j < i && cs[j].author == author
          ensures Text.Less(cs[j].timestamp, c.timestamp)
          ensures !Text.Less(c.timestamp, cs[j].timestamp)
        {
          if latest.Some? {
            LessAfterAtMost(cs[j].timestamp, latestStamp, c.timestamp);
          } else {
            LessAfterAtMost("", "", c.timestamp);
          }
        }
        Text.LessIrreflexive(c.timestamp);
        latest := Some(c);
        latestStamp := c.timestamp;
        k := i;
      }
    }
  }

  /** `getLatestQCCommentForThread` (with `author` QC) and its SM twin:
      nothing for an unknown thread, otherwise the latest comment by that
      author in the first thread with the id. */
  method LatestCommentForThread(ts: seq<Thread>, threadId: string, author: Author)
    returns (latest: Option<Comment>)
    ensures var found := FindThread(ts, threadId);
      && (found.None? ==> latest.None?)
      && (found.Some? ==> var cs := found.value.comments;
            && (latest.None? <==>
                  forall j :: 0 <= j < |cs| && cs[j].author == author ==> cs[j].timestamp == "")
            && (latest.Some? ==> exists k :: IsLatestAt(cs, author, k) && cs[k] == latest.value))
  {
    var found := FindThread(ts, threadId);
    if found.None? {
      return None;
    }
    latest := LatestBy(found.value.comments, author);
  }

  /** A comment added after every earlier comment of its author becomes that
      author's latest comment on the thread. */
  lemma AddedCommentBecomesLatest(cs: seq<Comment>, c: Comment)
    requires c.timestamp != ""
    requires forall j :: 0 <= j < |cs| && cs[j].author == c.author ==>
      Text.Less(cs[j].timestamp, c.timestamp)
    ensures IsLatestAt(cs + [c], c.author, |cs|)
  {
    var all := cs + [c];
    forall j | 0 <= j < |all| && all[j].author == c.author
      ensures !Text.Less(c.timestamp, all[j].timestamp)
    {
      if j < |cs| {
        if Text.Less(c.timestamp, cs[j].timestamp) {
          Text.LessTransitive(c.timestamp, cs[j].timestamp, c.timestamp);
          Text.LessIrreflexive(c.timestamp);
        }
      } else {
        Text.LessIrreflexive(c.timestamp);
      }
    }
  }

  /** One pass of the expand/collapse-all button over `ids`: toggle every id
      whose membership in the snapshot `before` equals `allExpanded`. */
  function ToggleEach(s: set<string>, ids: seq<string>, before: set<string>, allExpanded: bool)
    : set<string>
    decreases |ids|
  {
    if |ids| == 0 then s
    else
      var s' := if (ids[0] in before) == allExpanded then Commands.Toggle(s, ids[0]) else s;
      ToggleEach(s', ids[1..], before, allExpanded)
  }

  /** The expand/collapse-all button: if every listed thread is expanded,
      collapse the expanded ones; otherwise expand the collapsed ones. */
  function ExpandCollapseAll(expanded: set<string>, ids: seq<string>): set<string> {
    var allExpanded := forall i :: 0 <= i < |ids| ==> ids[i] in expanded;
    ToggleEach(expanded, ids, expanded, allExpanded)
  }

  lemma {:induction false} ToggleEachEffect(s: set<string>, ids: seq<string>,
                                            before: set<string>, allExpanded: bool)
    requires Distinct(ids)
    requires forall i :: 0 <= i < |ids| ==> (ids[i] in s <==> ids[i] in before)
    ensures forall i :: 0 <= i < |ids| ==>
      (ids[i] in ToggleEach(s, ids, before, allExpanded) <==> !allExpanded)
    ensures forall x :: x !in ids ==> (x in ToggleEach(s, ids, before, allExpanded) <==> x in s)
    decreases |ids|
  {
    if |ids| > 0 {
      var s' := if (ids[0] in before) == allExpanded then Commands.Toggle(s, ids[0]) else s;
      assert forall i :: 1 <= i < |ids| ==> ids[i] != ids[0];
      ToggleEachEffect(s', ids[1..], before, allExpanded);
      assert forall i :: 1 <= i < |ids| ==> ids[i] == ids[1..][i - 1];
    }
  }

  /** After the button, the listed threads are all collapsed if they were all
      expanded before, and all expanded otherwise; no other thread changes. */
  lemma ExpandCollapseAllEffect(expanded: set<string>, ids: seq<string>)
    requires Distinct(ids)
    ensures var allBefore := forall i :: 0 <= i < |ids| ==> ids[i] in expanded;
      forall i :: 0 <= i < |ids| ==> (ids[i] in ExpandCollapseAll(expanded, ids) <==> !allBefore)
    ensures forall x :: x !in ids ==> (x in ExpandCollapseAll(expanded, ids) <==> x in expanded)
  {
    var allBefore := forall i :: 0 <= i < |ids| ==> ids[i] in expanded;
    ToggleEachEffect(expanded, ids, expanded, allBefore);
  }
}

=== FILE: text.dfy ===
/** The three JavaScript string operations the dashboard relies on:
    `String.prototype.trim`, `String.prototype.includes` (a substring test)
    and the relational `<` / `>` on strings (code-unit lexicographic order). */
module Text {

  /** The characters `trim` removes: ECMAScript WhiteSpace (tab, vertical tab,
      form feed, space, no-break space, BOM and the Space_Separator category)
      and LineTerminator (LF, CR, line and paragraph separators). */
  predicate IsWhite(c: char) {
    || c == '\U{9}' || c == '\U{B}' || c == '\U{C}' || c == '\U{20}'
    || c == '\U{A0}' || c == '\U{FEFF}' || c == '\U{1680}'
    || ('\U{2000}' <= c <= '\U{200A}') || c == '\U{202F}' || c == '\U{205F}' || c == '\U{3000}'
    || c == '\U{A}' || c == '\U{D}' || c == '\U{2028}' || c == '\U{2029}'
  }

  predicate AllWhite(s: string) {
    forall i :: 0 <= i < |s| ==> IsWhite(s[i])
  }

  /** `s` neither starts nor ends with whitespace. */
  predicate Trimmed(s: string) {
    |s| == 0 || (!IsWhite(s[0]) && !IsWhite(s[|s| - 1]))
  }

  /** Number of leading whitespace characters. */
  function LeadingWhite(s: string): (n: nat)
    ensures n <= |s|
    ensures AllWhite(s[..n])
    ensures n < |s| ==> !IsWhite(s[n])
  {
    if |s| == 0 || !IsWhite(s[0]) then 0
    else 1 + LeadingWhite(s[1..])
  }

  /** Number of trailing whitespace characters. */
  function TrailingWhite(s: string): (n: nat)
    ensures n <= |s|
    ensures AllWhite(s[|s| - n..])
    ensures n < |s| ==> !IsWhite(s[|s| - n - 1])
  {
    if |s| == 0 || !IsWhite(s[|s| - 1]) then 0
    else
      var init := s[..|s| - 1];
      var m := TrailingWhite(init);
      assert s[|s| - (m + 1)..] == init[|init| - m..] + [s[|s| - 1]];
      assert m < |init| ==> s[|s| - (m + 1) - 1] == init[|init| - m - 1];
      1 + m
  }

  /** `s.trim()`: `s` without its leading and trailing whitespace. */
  function Trim(s: string): (r: string)
    ensures Trimmed(r)
    ensures exists i, j :: 0 <= i <= j <= |s| && r == s[i..j]
                          && AllWhite(s[..i]) && AllWhite(s[j..])
  {
    var a := LeadingWhite(s);
    var rest := s[a..];
    var b := TrailingWhite(rest);
    var r := rest[..|rest| - b];
    assert r == s[a..|s| - b];
    assert s[|s| - b..] == rest[|rest| - b..];
    assert |r| > 0 ==> r[0] == s[a] && r[|r| - 1] == rest[|rest| - b - 1];
    r
  }

  /** A string trims to empty exactly when it is all whitespace: this is the
      "non-blank" guard in front of every text input of the dashboard. */
  lemma TrimEmptyIffWhite(s: string)
    ensures Trim(s) == [] <==> AllWhite(s)
  {
  }

  /** Trimming twice is trimming once. */
  lemma TrimIdempotent(s: string)
    ensures Trim(Trim(s)) == Trim(s)
  {
    var t := Trim(s);
    assert LeadingWhite(t) == 0;
    assert t[0..] == t;
    assert TrailingWhite(t) == 0;
    assert t[..|t|] == t;
  }

  /** JavaScript's `hay.includes(needle)` on a string: `needle` occurs in `hay`
      as a contiguous block. */
  predicate Contains(hay: string, needle: string) {
    needle <= hay || (|hay| > 0 && Contains(hay[1..], needle))
  }

  /** `a < b` on JavaScript strings: lexicographic order, a proper prefix
      being smaller. */
  predicate Less(a: string, b: string)
    decreases |a|
  {
    if |a| == 0 then |b| > 0
    else if |b| == 0 then false
    else if a[0] != b[0] then a[0] < b[0]
    else Less(a[1..], b[1..])
  }

  lemma {:induction false} LessIrreflexive(a: string)
    ensures !Less(a, a)
  {
    if |a| > 0 {
      LessIrreflexive(a[1..]);
    }
  }

  lemma {:induction false} LessTransitive(a: string, b: string, c: string)
    requires Less(a, b) && Less(b, c)
    ensures Less(a, c)
  {
    if |a| > 0 && |b| > 0 && |c| > 0 && a[0] == b[0] && b[0] == c[0] {
      LessTransitive(a[1..], b[1..], c[1..]);
    }
  }

  /** Any two distinct strings are ordered one way or the other. */
  lemma {:induction false} LessTotal(a: string, b: string)
    requires a != b
    ensures Less(a, b) || Less(b, a)
  {
    if |a| > 0 && |b| > 0 && a[0] == b[0] {
      assert a == [a[0]] + a[1..] && b == [b[0]] + b[1..];
      LessTotal(a[1..], b[1..]);
    }
  }
}

=== FILE: wrappers.dfy ===
/** The absent-or-present value used wherever the source returns `null`,
    leaves an optional field unset, or reads a missing key. */
module Wrappers {

  datatype Option<+T> = None | Some(value: T)
}
